=== FILE: README.md ===
# SP spectrum extraction, modelled in Dafny

A model of `sp_extract.py`. The script reads a SELENE (Kaguya) Spectral
Profiler product. Such a product is one file: a PDS text label followed by
binary data. The script then:

1. scans the label for byte offsets, row counts and record layout;
2. decodes the big-endian wavelength, radiance and reflectance arrays and,
   for every observation, the incidence, emission and phase angle words of
   the ancillary table;
3. removes the detector-gap bands 61..83 from the wavelengths and the
   reflectance;
4. scales every reflectance column that the photometric coefficient table
   covers to the reference geometry (incidence 30, emission 0, phase 30
   degrees);
5. divides every observation by a straight-line continuum through the bands
   nearest to 752.8 nm and 1547.7 nm.

Modules, one per part of the script:

- `Base`: options, results with the error kinds the script can raise, the
  observation-by-band `Grid`, and the angle triple.
- `Floats`: numpy float arithmetic over reals. `NonFinite` stands for inf
  and nan. Cosine, tangent and `** 1.5` are uninterpreted functions in a
  `Math` record.
- `Text`: the Python string operations the script uses. These are `in`,
  `split`, iteration over a file's lines, and `int()`.
- `Label`: the label scan (`openspc`, lines 44-75).
- `Decode`: the binary decoding (`openspc`, lines 77-111).
- `Clean`: `clean_data`.
- `BandSearch`: `getbandnumbers`.
- `Coefficients`: `parse_coefficients`.
- `Photometric`: `photometric_correction` and its driver loop.
- `Continuum`: `continuum_correction` and its driver loop.
- `Pipeline`: the script body from reading the product to the continuum
  loop.

Failures are values. Every operation returns a `Result`, and its `Err` names
what Python would raise. On the label lines that is IndexError (`LabelIndex`)
where `split(...)[1]` finds no piece to take, as on a line that mentions a
key but has no `=`, and ValueError (`LabelValue`) where `int()` rejects the
text. A label field that is never found stays `None`. It
fails (`MissingField`) only where the code first uses it. This is Python's
unbound-local error, raised at that point and not during the scan.

`Text.ParseInt` is Python 2's `int()` of a byte string in base 10: optional
whitespace (the six ASCII whitespace bytes), an optional sign, optional
whitespace, digits, optional whitespace. Any other text, such as an embedded
NUL byte or a trailing `L`, is rejected, as `int()` rejects it. A value too
large for a C long becomes a Python long, which the model's unbounded
integers already are.

The code and its docstrings disagree in places; the model follows the code:

- `clean_data` deletes the 23 bands 61..83 and keeps the other **273**. The
  docstring promises 161 bands, "clipped at 1.7 microns", but no clipping
  happens. `Clean.CleanBands` is 273.
- A matrix whose width is not 296 fails the boolean-mask indexing. The
  bare `except` then sends it down the vector path, where `np.delete`
  flattens it (`Clean.DeleteFlat`).
- Anchor bands at the same wavelength raise nothing. numpy divides by zero
  and the whole continuum becomes inf/nan (`Continuum.BaselineDegenerate`).
- A short read of the wavelengths or of a matrix is no error by itself.
  Only an odd byte count or a row count that does not match fails, when
  the data is reshaped. A short read of an angle word does fail
  (`ShortRead`), because `unpack('>f', ...)` needs exactly four bytes.
- With `-s`, `np.reshape(wv_array, (296, 1))` (line 116) needs all 296
  wavelengths, so a short wavelength vector fails there (`SizeError`).
- `-w` is declared with `nargs=1`, so `args.wv_limits` is a one-element
  list whenever the option is given, and `int()` of it (line 248) raises
  TypeError. Only the default 1652 gets past that line.
- The script runs under Python 2, so the numpy it runs with is 1.16 or
  older. There, a boolean mask whose length does not match the axis raises
  IndexError, which the bare `except` catches. `np.delete` with indices
  past the end drops them with a warning and does not raise. So
  `clean_data` never fails.

## Model

| member | source | states |
|---|---|---|
| Text.LinesConcat | sp_extract.py:45 | The label lines iterated over, each keeping its newline, concatenate back to the whole file, and only the last may lack a newline |
| Text.ParseShowInt | sp_extract.py:54 | `int()` of a decimal integer surrounded by whitespace gives back that integer |
| Text.ParseSpacedSign | sp_extract.py:54 | `int()` allows whitespace between the sign and the digits, as Python 2 does, and gives the signed value |
| Text.Lines | sp_extract.py:45 | Iterating over the file yields non-empty lines; every line but the last ends in its newline, and no line holds a newline before its end |
| Text.ParseIntNeedsDigit | sp_extract.py:54 | `int()` raises ValueError on text without a digit, and gives a negative value only when there is a minus sign |
| Text.Split | sp_extract.py:181 | `split(",")` gives at least one piece, and no piece holds the separator |
| Text.SplitJoin | sp_extract.py:181 | Splitting fields joined by a separator they do not contain gives back the fields |
| Text.JoinSplit | sp_extract.py:181 | Joining the pieces of a split with the separator rebuilds the string |
| Label.PointerValueOfLine | sp_extract.py:47 | A pointer line `KEY = <n> <unit>` yields the integer n |
| Label.AssignedValueOfLine | sp_extract.py:52-70 | An assignment line `KEY = <n>` (spaces allowed around n) yields n |
| Label.AncillaryValueOfLine | sp_extract.py:71-72 | The ancillary pointer line `KEY = <n> <BYTES>` yields n, read up to the `<` |
| Label.ReadValueOfToken | sp_extract.py:47-72 | Every value read is `int()` of one token of the line: a missing token raises IndexError, and a token `int()` rejects raises ValueError |
| Label.ReadErrorLine | sp_extract.py:47-72 | IndexError comes only from a line without even the pointer token after `= `, and ValueError only from a line that has an `=` |
| Label.NoEqualsIndexError | sp_extract.py:54 | A matched line without `=`, such as a comment naming the key, raises IndexError whichever value it is read for |
| Label.AssignAfter | sp_extract.py:52-66 | A matching line makes the scan read the line `skip` lines further on and assign from it. The label ending before that line raises StopIteration and nothing else does; otherwise the test succeeds exactly when that line parses, and fails at that line when it does not, with IndexError or ValueError as its token decides |
| Label.CountTests | sp_extract.py:52-57 | The two OBJECT tests: a line with neither key changes nothing; the first key present takes the value on the next line, and only the two row counts change. When that value line holds no further count key, they succeed exactly when it parses. They fail only with StopIteration or with the IndexError or ValueError of a later line that does not parse |
| Label.AngleTests | sp_extract.py:58-66 | The three angle NAME tests: a line with none of them changes nothing; the first name present takes the value three lines below, and only the three angle offsets change. When that value line holds none of the later names, they succeed exactly when it parses. They fail only with StopIteration or with the IndexError or ValueError of a later line that does not parse |
| Label.PointerTests | sp_extract.py:46-51 | The three pointer tests succeed exactly when no pointer key is present or the line's pointer value parses. Each offset whose key is on the line takes that value, and nothing else changes. A failure is the IndexError or ValueError of the pointer token |
| Label.ObjectTests | sp_extract.py:52-66 | A line with no object or angle key changes nothing. The first key present takes the value on the line one (object) or three (angle) lines below. Only row counts and angle offsets change, and the cursor stays on the current line or a later one. The tests fail only with StopIteration or with the IndexError or ValueError of a later line that does not parse |
| Label.ObjectTestsSucceed | sp_extract.py:52-66 | When the first OBJECT or NAME key on a line has a value line holding none of the five keys, the tests succeed exactly when that value line parses |
| Label.TrailingTests | sp_extract.py:67-72 | The last three tests succeed exactly when each key present has a parsable value on the line. Each field whose key is on the line takes that value, and nothing else changes. A failure is the IndexError or ValueError of the first read that fails, the count and record-length reads before the ancillary one |
| Label.Iterate | sp_extract.py:45-75 | Each loop step consumes at least one label line, and it stops only on a line holding the QA object key |
| Label.LinesReadEnd | sp_extract.py:45-75 | The loop reads every label line unless it breaks, and when it breaks the last line read is the QA object line |
| Label.ScanLabel | sp_extract.py:44-75 | The label scan fails only with StopIteration (a value line past the end of the label), with IndexError on a label line lacking the piece a `split` is indexed for, or with ValueError on a label line that has an `=` |
| Label.ScanLabelSound | sp_extract.py:44-75 | Every field the scan reports comes from a line before the break that contains its key, at the right skip distance, and parses to that value |
| Label.KeyLineStep | sp_extract.py:45-72 | A line holding exactly one key, with a key-free value line, sets that key's field to the value read `skip` lines below (0 for pointers and counts, 1 for OBJECT lines, 3 for angle NAME lines), replacing any earlier value, and the scan goes on after the value line. A missing value line raises StopIteration and an unreadable value raises IndexError (no token) or ValueError (`int()` rejects it) |
| Label.KeyIterate | sp_extract.py:45-72 | KeyLineStep for a single loop iteration |
| Label.PointerKeyIterate | sp_extract.py:46-51 | One iteration on a line holding only one pointer key sets that pointer's offset from the same line, replacing any earlier value, and the loop goes on with the next line; a value that does not parse raises IndexError (no token) or ValueError (`int()` rejects it) |
| Label.ObjectKeyIterate | sp_extract.py:52-66 | One iteration on a line holding only one OBJECT or angle NAME key sets that field from the line one (OBJECT) or three (NAME) lines below, and the loop goes on after that line; a label that ends first raises StopIteration, and an unreadable value raises IndexError (no token) or ValueError (`int()` rejects it) |
| Label.TrailingKeyIterate | sp_extract.py:67-72 | One iteration on a line holding only the observation count, the record length or the ancillary pointer sets that field from the same line (the ancillary offset from the text before the `<`), and the loop goes on with the next line; a value that does not parse raises IndexError (no token) or ValueError (`int()` rejects it) |
| Label.ScanIgnoresLinesAfterBreak | sp_extract.py:73-75 | Once the QA object line stops the scan, appending any text to the label changes nothing |
| Label.QuietLineSkipped | sp_extract.py:45-75 | A line containing none of the keys leaves every field as it was |
| Label.QaLineStops | sp_extract.py:73-75 | The QA object line ends the scan with the fields found so far |
| Decode.Read | sp_extract.py:78-79 | `seek` then `read(n)`: a negative position fails, a read stops at end of file, and a negative count reads to the end; the bytes read are those at the position |
| Decode.BigEndianU16s | sp_extract.py:79 | `>H` decoding succeeds exactly on an even byte count, and word k is `256 * b[2k] + b[2k+1]` |
| Decode.DecodeEncode | sp_extract.py:79 | Encoding 16-bit words big-endian and decoding them gives back the words |
| Decode.EncodeDecode | sp_extract.py:79 | Decoding an even byte string and re-encoding it gives back the bytes |
| Decode.Reshape | sp_extract.py:88 | `reshape(rows, 296)` succeeds exactly when the count fits (any negative count is inferred from the size, as numpy 1.16 and older do), and puts value `i*296+k` at row i, band k |
| Decode.DecodeWavelengths | sp_extract.py:78-81 | The wavelength vector is word k after the 1-based wavelength offset, times 0.1; it has all 296 entries when the file is long enough, and a missing offset fails |
| Decode.DecodeRows | sp_extract.py:84-96 | A decoded matrix needs both label fields, and is 296 bands wide |
| Decode.DecodeRowsComplete | sp_extract.py:84-96 | With a non-negative row count, decoding succeeds exactly when there are no rows or the file holds all of them, and then yields exactly that many rows |
| Decode.DecodeRowsInferred | sp_extract.py:84-88 | With a negative row count the read takes the rest of the file and the reshape infers the rows: decoding succeeds exactly when the rest is a whole number of 592-byte rows, and gives that many rows |
| Decode.DecodeRowsElement | sp_extract.py:84-96 | Row i, band k is the big-endian word at byte `offset - 1 + 2*(296*i + k)`, times the scale |
| Decode.AnglePos | sp_extract.py:102-108 | The seek position of an angle word is `ancillary + n*row_bytes + field_offset - 2` |
| Decode.ReadWord | sp_extract.py:103 | Reading a four-byte word fails exactly when the position is negative or fewer than four bytes remain |
| Decode.ObservationAngles | sp_extract.py:101-110 | One observation's angles succeed exactly when the layout fields are known and all three words can be read; the words are the bytes at the three positions |
| Decode.ReadGeometry | sp_extract.py:99-111 | The angle loop reads `max(num_observations, 0)` triples, triple n being observation n's words. It fails exactly when the count is missing or some observation fails |
| Decode.DecodeProduct | sp_extract.py:77-111 | `openspc` succeeds exactly when the wavelengths, both matrices and the geometry decode, and returns exactly those. A missing offset, row count or observation count fails, and so do missing layout fields when there are observations |
| Clean.Select | sp_extract.py:136 | Boolean-mask indexing returns no more elements than it was given; SelectOutside gives its result for the spike mask |
| Clean.SelectSubMultiset | sp_extract.py:136 | What boolean-mask indexing keeps is a sub-multiset of its input: it drops elements and never invents or repeats one |
| Clean.SelectOutside | sp_extract.py:136 | Indexing by a mask that is false exactly on `[lo, hi)` gives `s[..lo] + s[hi..]` |
| Clean.SpikeMaskIsOutside | sp_extract.py:135 | The mask of 61 ones, 23 zeros and 212 ones is false exactly on bands 61..83 |
| Clean.MaskRow | sp_extract.py:135-136 | Masking a 296-band row keeps bands 0..60 and 84..295, 273 bands in order |
| Clean.DeleteSpike | sp_extract.py:140 | `np.delete(a, range(61, 84))` removes the indices 61..83 that exist and ignores the rest: with at least 84 entries it removes exactly those bands, with 61 or fewer it changes nothing, and every kept entry k is raw entry `RawIndex(k)` |
| Clean.CleanData | sp_extract.py:132-141 | `clean_data` never fails. On a vector, a 296-wide matrix and any other matrix, the result is the band cut, the row-wise mask, or the flattened fallback respectively |
| Clean.DeleteFlat | sp_extract.py:138-141 | The fallback for a matrix of another width flattens it row by row, deletes flat positions 61..83 that exist, and returns a vector whose entry k is flat entry `RawIndex(k)` |
| Clean.CleanPathsAgree | sp_extract.py:132-141 | The mask path and the delete path remove the same bands from a 296-band spectrum, leaving 273 |
| Clean.CleanedBand | sp_extract.py:140 | Cleaned band k is raw band k below 61 and raw band k + 23 from there on |
| BandSearch.FirstNearestUnique | sp_extract.py:162 | At most one index is nearest with no earlier index as near, so the band `min` picks is well defined |
| BandSearch.Nearest | sp_extract.py:162 | `min(range(len(w)), key=...)` returns an index nearest to the target, and the first such on ties |
| BandSearch.BandNumbers | sp_extract.py:160-163 | One band per target, in order, each nearest to its target; an empty wavelength list with a target raises |
| Coefficients.ParseFields | sp_extract.py:182 | The list comprehension succeeds exactly when every field parses, and yields the parsed fields in order |
| Coefficients.ParseCoefficients | sp_extract.py:178-184 | One row per line, each row the line's fields after the first; the first line with an unparsable field is the one reported |
| Coefficients.ParseWrittenRow | sp_extract.py:180-182 | A line written as a name and comma-separated numbers parses back to exactly those numbers |
| Photometric.RowCoefficients | sp_extract.py:203-206 | A table row yields b0, h, c, g exactly when it has at least four fields |
| Photometric.XlConstant | sp_extract.py:259-262 | `xl_constant` raises ZeroDivisionError exactly when cos 30 + cos 0 is zero |
| Photometric.FObservedAtReference | sp_extract.py:209-216 | The observed phase function at phase 30 equals `f_fixed` |
| Photometric.PhgSingleLobe | sp_extract.py:196-199 | With g = 1 or g = -1 the Henyey-Greenstein term is 0 wherever it is defined |
| Photometric.PhaseFunctionsNonFinite | sp_extract.py:209-216 | A non-finite coefficient makes both `f_fixed` and `f_observed` non-finite |
| Photometric.FObservedNonFinitePhase | sp_extract.py:214-216 | A non-finite phase angle makes `f_observed` non-finite |
| Photometric.LunarLPolynomial | sp_extract.py:221 | The Lunar-Lambert weight `l` equals the cubic in Horner form, is non-finite for a non-finite phase, and is 1 at zero phase |
| Photometric.XlLommelSeeliger | sp_extract.py:222-224 | With weight l = 1, as at zero phase, `xl_observed` is the Lommel-Seeliger term `2 cos i / (cos i + cos e)` |
| Photometric.XlLambert | sp_extract.py:222-224 | With weight l = 0, `xl_observed` is the Lambert term `cos i` |
| Photometric.XlDivideByZero | sp_extract.py:222-224 | With cos i + cos e = 0, `xl_observed` is inf or nan |
| Photometric.XlObservedAtReference | sp_extract.py:221-224 | The observed Lunar-Lambert term at (30, 0, 30) equals `xl_constant`, and is inf/nan where `xl_constant` raises |
| Photometric.CorrectValueScales | sp_extract.py:218-228 | The correction multiplies every reflectance by one factor, the value it gives a reflectance of 1, so the factor depends only on the geometry and the coefficients |
| Photometric.CorrectValueAtReference | sp_extract.py:218-228 | At the reference geometry the correction factor is 1 and leaves the reflectance unchanged |
| Photometric.CorrectColumn | sp_extract.py:186-229 | A column is corrected exactly when there are angles, the row has four coefficients and the shapes broadcast; value i uses observation i's angles, or the only observation's |
| Photometric.CorrectColumnAtReference | sp_extract.py:209-228 | A column whose observations are all at the reference geometry is returned unchanged |
| Photometric.CorrectAll | sp_extract.py:265-269 | Column wv takes table row wv's correction, columns past the table keep their values, and a table longer than the row width raises IndexError |
| Continuum.Baseline | sp_extract.py:237-239 | The continuum has one value per wavelength; BaselineIsLine gives each value |
| Continuum.BaselineIsLine | sp_extract.py:237-239 | The continuum at wavelength w is `y1 + (y2 - y1)(w - wv1)/(wv2 - wv1)` |
| Continuum.BaselineThroughAnchors | sp_extract.py:232-239 | The continuum passes through the reflectance at both anchor bands |
| Continuum.BaselineDegenerate | sp_extract.py:237 | Equal anchor wavelengths or a non-finite anchor value make every continuum value inf/nan, with no error raised |
| Continuum.ContinuumRow | sp_extract.py:231-242 | One observation succeeds exactly when both anchors index the row and the wavelengths broadcast; it returns the row divided by the continuum and the continuum itself |
| Continuum.RemovedAtAnchors | sp_extract.py:241 | The continuum-removed spectrum is exactly 1 at both anchor bands |
| Continuum.FlatSpectrum | sp_extract.py:231-242 | A flat spectrum is its own continuum and comes out as all 1s |
| Continuum.ContinuumAll | sp_extract.py:273-280 | Every observation is replaced by its continuum-removed spectrum and its continuum is kept, both matrices of the input's shape |
| Pipeline.CleanReflectance | sp_extract.py:247 | The cleaned reflectance's band k of each row is raw band k below 61 and raw band k + 23 above |
| Pipeline.ReadProduct | sp_extract.py:245-247 | The wavelengths, reflectance and angles returned are the cleaned vector, the cleaned matrix and the decoded angle words that the label's fields point at. Reading succeeds exactly when the label scan, the wavelength and both matrix reads and every observation's angle words succeed, and, with `-s` (passed to `openspc`, whose line 116 reshapes the raw wavelengths to 296 x 1), the wavelength vector has all 296 bands |
| Pipeline.Correct | sp_extract.py:252-280 | Column j < len(table) of the photometric result is `photometric_correction` of input column j with table row j; the other columns are copied; the two anchors are the first nearest bands to 752.8 and 1547.7; every observation's continuum fit is stored. It succeeds exactly when `xl_constant` is defined, the table is no wider than the matrix and every row has four coefficients, the angles broadcast against the observations (when the table is not empty), and the wavelengths are non-empty and broadcast against the bands (when there are observations) |
| Pipeline.ColumnsCorrectable | sp_extract.py:265-269 | Every covered column can be corrected exactly when every table row has four coefficients and the angles broadcast against the observations |
| Pipeline.Run | sp_extract.py:244-280 | Giving `-w` always fails. A successful run reads the product's wavelengths, reflectance and angles, parses the whole table, corrects exactly the columns the table covers with their own row, and removes the continuum from every observation at the nearest anchor bands. Without `-w` the run succeeds exactly when the product reads, the table parses and the correction succeeds on the product's data |

## Left out

- Command-line parsing, the plots, and the write of the CSV export
  (`savetxt`): they do only I/O. The reshape the export needs at line 116
  can fail the run and is modelled (`Pipeline.SaveFits`).
- The default wavelength limit and `np.where` of the plot extent (lines
  248-249): they only feed the plots. The failure of `int()` when `-w` is
  given is modelled (`Pipeline.Run`).
- Opening files: the product and the coefficient table are parameters, as
  bytes and as text.
- `unpack('>f', ...)`: the model returns the four angle bytes, and the
  decoding of an IEEE single is a parameter (`decode32`).
- `float()` of a coefficient field is a parameter (`parseFloat`). It returns
  `None` where Python raises ValueError.
- The trigonometric functions and `** 1.5` are uninterpreted, so no
  property depends on their values.
- Floats.Div: real arithmetic stands in for IEEE doubles, with no rounding.
  Any division by zero or by a non-finite value gives `NonFinite`, where
  IEEE gives 0 for a finite value over inf.
- Decode.DecodeRows: the contract gives the whole matrix only when the file
  is long enough (`Decode.DecodeRowsComplete`) or the count is negative
  (`Decode.DecodeRowsInferred`). A short read whose length
  happens to fit the reshape is described element by element
  (`Decode.DecodeRowsElement`).
- The radiance matrix is decoded (`Decode.DecodeProduct`) but not cleaned:
  the script never uses it after reading.

=== FILE: bands.dfy ===
/** `getbandnumbers` (sp_extract.py:143-163): for each requested wavelength,
    the index of the nearest entry of the wavelength vector, as
    `min(range(len(w)), key=lambda i: abs(w[i] - x))` finds it. */
module BandSearch {
  import opened Base

  function Distance(a: real, b: real): (d: real)
    ensures d >= 0.0 && (d == 0.0 <==> a == b)
  {
    if a >= b then a - b else b - a
  }

  /** `i` is the index `min` returns: no entry is nearer to `x`, and every
      earlier entry is strictly farther, since `min` keeps the first of equal
      keys. */
  predicate IsFirstNearest(w: seq<real>, x: real, i: int)
  {
    0 <= i < |w|
    && (forall j :: 0 <= j < |w| ==> Distance(w[i], x) <= Distance(w[j], x))
    && (forall j :: 0 <= j < i ==> Distance(w[i], x) < Distance(w[j], x))
  }

  /** At most one index is the first nearest. */
  lemma FirstNearestUnique(w: seq<real>, x: real, i: int, j: int)
    requires IsFirstNearest(w, x, i) && IsFirstNearest(w, x, j)
    ensures i == j
  {
    assert Distance(w[i], x) == Distance(w[j], x);
  }

  /** Python's `min` with a key: scan left to right, replacing the best so far
      only on a strictly smaller key. */
  method Nearest(w: seq<real>, x: real) returns (best: nat)
    requires |w| > 0
    ensures IsFirstNearest(w, x, best)
  {
    best := 0;
    var i := 1;
    while i < |w|
      invariant 1 <= i <= |w| && best < i
      invariant forall j :: 0 <= j < i ==> Distance(w[best], x) <= Distance(w[j], x)
      invariant forall j :: 0 <= j < best ==> Distance(w[best], x) < Distance(w[j], x)
    {
      if Distance(w[i], x) < Distance(w[best], x) {
        best := i;
      }
      i := i + 1;
    }
  }

  /** `getbandnumbers(w, *targets)`: one index per target, in the targets'
      order; `min` of an empty range is a ValueError. */
  method BandNumbers(w: seq<real>, targets: seq<real>) returns (r: Result<seq<nat>>)
    ensures r.Err? <==> |targets| > 0 && |w| == 0
    ensures r.Err? ==> r.error == EmptyArgument
    ensures r.Ok? ==> |r.value| == |targets|
    ensures r.Ok? ==> forall t :: 0 <= t < |targets| ==> IsFirstNearest(w, targets[t], r.value[t])
  {
    var bands: seq<nat> := [];
    var t := 0;
    while t < |targets|
      invariant 0 <= t <= |targets| && |bands| == t
      invariant t > 0 ==> |w| > 0
      invariant forall u :: 0 <= u < t ==> IsFirstNearest(w, targets[u], bands[u])
    {
      if |w| == 0 {
        return Err(EmptyArgument);
      }
      var b := Nearest(w, targets[t]);
      bands := bands + [b];
      t := t + 1;
    }
    return Ok(bands);
  }
}

=== FILE: base.dfy ===
/** Shared vocabulary of the extractor model: optional values, the ways a run
    stops with an exception, failure-compatible results, and numpy-like 2-D
    arrays. */
module Base {

  datatype Option<+T> = None | Some(value: T)

  /** The exceptions a run of the extractor can stop with. */
  datatype Error =
    | LabelEnded               // `label.next()` ran past the last label line
    | LabelIndex(line: nat)    // a matched label line lacks the piece `split(...)[i]` takes
    | LabelValue(line: nat)    // `int()` rejected the value of a matched label line
    | MissingField(name: string) // a label field was used but never assigned
    | SeekError                // seek to a negative byte position
    | ShortRead                // fewer than 4 bytes left for a `>f` angle
    | SizeError                // byte or element count does not fit the requested shape
    | IndexError               // index past the end of an array or list
    | ShapeError               // numpy could not broadcast two shapes together
    | ZeroDivision             // Python float division by zero
    | BadNumber(line: nat)     // `float()` rejected a coefficient field
    | EmptyArgument            // `min()` of an empty sequence
    | TypeError                // `int()` of a list

  /** Either a value or the exception that stopped the computation. */
  datatype Result<+T> = Ok(value: T) | Err(error: Error) {
    predicate IsFailure() { Err? }

    function PropagateFailure<U>(): Result<U>
      requires Err?
    {
      Err(error)
    }

    function Extract(): T
      requires Ok?
    {
      value
    }
  }

  function Min(a: int, b: int): int
  {
    if a <= b then a else b
  }

  /** Reading a local that may never have been assigned. */
  function Need(x: Option<int>, name: string): (r: Result<int>)
    ensures r.Ok? <==> x.Some?
    ensures r.Ok? ==> r.value == x.value
    ensures r.Err? ==> r.error == MissingField(name)
  {
    match x
    case Some(v) => Ok(v)
    case None => Err(MissingField(name))
  }

  /** One observation's viewing geometry, in the order the angle table keeps it. */
  datatype Angles<T> = Angles(incidence: T, emission: T, phase: T)

  /** A 2-D numpy array: its declared width survives even when it has no rows. */
  datatype Grid<T> = Grid(width: nat, rows: seq<seq<T>>)

  predicate Rectangular<T>(g: Grid<T>)
  {
    forall i :: 0 <= i < |g.rows| ==> |g.rows[i]| == g.width
  }

  /** `a[:, j]` */
  function Column<T>(g: Grid<T>, j: nat): (c: seq<T>)
    requires Rectangular(g) && j < g.width
  {
    seq(|g.rows|, i requires 0 <= i < |g.rows| => g.rows[i][j])
  }

  /** `a[:, j] = c` for a column of matching length. */
  function SetColumn<T>(g: Grid<T>, j: nat, c: seq<T>): (r: Grid<T>)
    requires Rectangular(g) && j < g.width && |c| == |g.rows|
    ensures Rectangular(r) && r.width == g.width && |r.rows| == |g.rows|
    ensures forall i, k :: 0 <= i < |g.rows| && 0 <= k < g.width ==>
      r.rows[i][k] == if k == j then c[i] else g.rows[i][k]
  {
    Grid(g.width, seq(|g.rows|, i requires 0 <= i < |g.rows| => g.rows[i][j := c[i]]))
  }
}

=== FILE: clean.dfy ===
/** `clean_data` (sp_extract.py:121-141): dropping the 23 bands around the
    1 micron detector spike, 61..83, from a spectrum or from every row of a
    matrix of spectra. A matrix goes through a boolean column mask; anything
    the mask cannot index lands in the bare `except:` and goes through
    `np.delete`, which flattens a matrix first. */
module Clean {
  import opened Base

  /** The first dropped band and the first band kept after the spike. */
  const SpikeStart: nat := 61
  const SpikeEnd: nat := 84
  /** Bands per raw spectrum and per cleaned spectrum: 296 - 23. */
  const RawBands: nat := 296
  const CleanBands: nat := 273

  function Repeat<T>(x: T, n: nat): (r: seq<T>)
    ensures |r| == n && forall k :: 0 <= k < n ==> r[k] == x
  {
    seq(n, _ => x)
  }

  /** `np.concatenate((np.ones(61), np.zeros(23), np.ones(212)))` as booleans. */
  const SpikeMask: seq<bool> := Repeat(true, 61) + Repeat(false, 23) + Repeat(true, 212)

  /** Boolean-mask indexing `a[mask]` along one axis: the elements whose mask
      entry is true, in order. */
  function Select<T>(s: seq<T>, keep: seq<bool>): (r: seq<T>)
    requires |s| == |keep|
    ensures |r| <= |s|
    decreases |s|
  {
    if |s| == 0 then []
    else (if keep[0] then [s[0]] else []) + Select(s[1..], keep[1..])
  }

  /** Mask indexing only drops elements: what it keeps is a sub-multiset of its input. */
  lemma {:induction false} SelectSubMultiset<T>(s: seq<T>, keep: seq<bool>)
    requires |s| == |keep|
    ensures multiset(Select(s, keep)) <= multiset(s)
    decreases |s|
  {
    if |s| > 0 {
      SelectSubMultiset(s[1..], keep[1..]);
      assert s == [s[0]] + s[1..];
    }
  }

  /** The mask `np.delete(a, range(lo, hi))` keeps: every index outside [lo, hi). */
  function KeepOutside(n: nat, lo: nat, hi: nat): (r: seq<bool>)
    ensures |r| == n
  {
    seq(n, k => !(lo <= k < hi))
  }

  lemma {:induction false} SelectAppend<T>(a: seq<T>, ka: seq<bool>, b: seq<T>, kb: seq<bool>)
    requires |a| == |ka| && |b| == |kb|
    ensures Select(a + b, ka + kb) == Select(a, ka) + Select(b, kb)
    decreases |a|
  {
    if |a| > 0 {
      SelectAppend(a[1..], ka[1..], b, kb);
      assert (a + b)[1..] == a[1..] + b;
      assert (ka + kb)[1..] == ka[1..] + kb;
    } else {
      assert a + b == b && ka + kb == kb;
    }
  }

  lemma {:induction false} SelectAll<T>(s: seq<T>, keep: seq<bool>)
    requires |s| == |keep| && forall k :: 0 <= k < |keep| ==> keep[k]
    ensures Select(s, keep) == s
    decreases |s|
  {
    if |s| > 0 {
      SelectAll(s[1..], keep[1..]);
      assert s == [s[0]] + s[1..];
    }
  }

  lemma {:induction false} SelectNone<T>(s: seq<T>, keep: seq<bool>)
    requires |s| == |keep| && forall k :: 0 <= k < |keep| ==> !keep[k]
    ensures Select(s, keep) == []
    decreases |s|
  {
    if |s| > 0 {
      SelectNone(s[1..], keep[1..]);
    }
  }

  /** A mask that is true, then false over [lo, hi), then true, selects
      everything outside [lo, hi). */
  lemma SelectOutside<T>(s: seq<T>, keep: seq<bool>, lo: nat, hi: nat)
    requires lo <= hi <= |s| == |keep|
    requires forall k :: 0 <= k < |keep| ==> (keep[k] <==> !(lo <= k < hi))
    ensures Select(s, keep) == s[..lo] + s[hi..]
  {
    var s1, s2, s3 := s[..lo], s[lo..hi], s[hi..];
    var k1, k2, k3 := keep[..lo], keep[lo..hi], keep[hi..];
    assert s == s1 + s2 + s3;
    assert keep == k1 + k2 + k3;
    assert forall k :: 0 <= k < |k1| ==> k1[k] by {
      forall k | 0 <= k < |k1| ensures k1[k] { assert k1[k] == keep[k]; }
    }
    assert forall k :: 0 <= k < |k2| ==> !k2[k] by {
      forall k | 0 <= k < |k2| ensures !k2[k] { assert k2[k] == keep[lo + k]; }
    }
    assert forall k :: 0 <= k < |k3| ==> k3[k] by {
      forall k | 0 <= k < |k3| ensures k3[k] { assert k3[k] == keep[hi + k]; }
    }
    SelectAppend(s1 + s2, k1 + k2, s3, k3);
    SelectAppend(s1, k1, s2, k2);
    SelectAll(s1, k1);
    SelectNone(s2, k2);
    SelectAll(s3, k3);
    calc {
      Select(s, keep);
      Select(s1 + s2 + s3, k1 + k2 + k3);
      Select(s1 + s2, k1 + k2) + Select(s3, k3);
      Select(s1, k1) + Select(s2, k2) + s3;
      s1 + [] + s3;
    }
    assert s1 + [] == s1;
  }

  /** The source's mask drops exactly the spike bands. */
  lemma SpikeMaskIsOutside()
    ensures SpikeMask == KeepOutside(RawBands, SpikeStart, SpikeEnd)
  {
    var m := KeepOutside(RawBands, SpikeStart, SpikeEnd);
    forall k | 0 <= k < RawBands
      ensures SpikeMask[k] == m[k]
    {
      if k < 61 {
        assert SpikeMask[k] == Repeat(true, 61)[k];
      } else if k < 84 {
        assert SpikeMask[k] == Repeat(false, 23)[k - 61];
      } else {
        assert SpikeMask[k] == Repeat(true, 212)[k - 84];
      }
    }
  }

  /** `row[mask]` for one 296-band row: the row without bands 61..83. */
  function MaskRow<T>(row: seq<T>): (r: seq<T>)
    requires |row| == RawBands
    ensures r == row[..SpikeStart] + row[SpikeEnd..]
    ensures |r| == CleanBands
  {
    SpikeMaskIsOutside();
    SelectOutside(row, SpikeMask, SpikeStart, SpikeEnd);
    Select(row, SpikeMask)
  }

  /** Where cleaned band `k` sits in the raw spectrum. */
  function RawIndex(k: nat): nat
  {
    if k < SpikeStart then k else k + (SpikeEnd - SpikeStart)
  }

  /** `np.delete(s, range(61, 84))` on a flat array, as the numpy releases
      that run under Python 2 (up to 1.16) do it: indices past the end are
      dropped with a DeprecationWarning instead of raising. */
  function DeleteSpike<T>(s: seq<T>): (r: seq<T>)
    ensures |s| >= SpikeEnd ==> r == s[..SpikeStart] + s[SpikeEnd..]
    ensures |s| <= SpikeStart ==> r == s
    ensures SpikeStart < |s| < SpikeEnd ==> r == s[..SpikeStart]
    ensures |r| == |s| - (Min(SpikeEnd, |s|) - Min(SpikeStart, |s|))
    ensures forall k :: 0 <= k < |r| ==> RawIndex(k) < |s| && r[k] == s[RawIndex(k)]
  {
    var lo, hi := Min(SpikeStart, |s|), Min(SpikeEnd, |s|);
    SelectOutside(s, KeepOutside(|s|, lo, hi), lo, hi);
    Select(s, KeepOutside(|s|, lo, hi))
  }

  /** A numpy array of band values: one spectrum, or one spectrum per row. */
  datatype BandArray<T> = Vector(items: seq<T>) | Matrix(grid: Grid<T>)

  /** The row-major flattening `np.delete` applies to a matrix. */
  function Flatten<T>(rows: seq<seq<T>>): (r: seq<T>)
    decreases |rows|
  {
    if |rows| == 0 then [] else rows[0] + Flatten(rows[1..])
  }

  /** `clean_data(array)`: a 1-D array has no `shape[1]` and a matrix whose
      width is not 296 makes the mask raise IndexError; both land in the
      `except:` branch. Neither branch raises. */
  function CleanData<T>(a: BandArray<T>): (r: BandArray<T>)
    requires a.Matrix? ==> Rectangular(a.grid)
    ensures a.Vector? ==> r.Vector? && |r.items| == |a.items| - (Min(SpikeEnd, |a.items|) - Min(SpikeStart, |a.items|))
    ensures a.Vector? ==> forall k :: 0 <= k < |r.items| ==> RawIndex(k) < |a.items| && r.items[k] == a.items[RawIndex(k)]
    ensures a.Vector? && |a.items| >= SpikeEnd ==> r == Vector(a.items[..SpikeStart] + a.items[SpikeEnd..])
    ensures a.Matrix? && a.grid.width == RawBands ==> (r.Matrix?
      && r.grid.width == CleanBands && |r.grid.rows| == |a.grid.rows|
      && Rectangular(r.grid)
      && forall i :: 0 <= i < |a.grid.rows| ==>
           r.grid.rows[i] == a.grid.rows[i][..SpikeStart] + a.grid.rows[i][SpikeEnd..])
    ensures a.Matrix? && a.grid.width != RawBands ==> r == DeleteFlat(a.grid)
  {
    match a
    case Vector(s) => Vector(DeleteSpike(s))
    case Matrix(g) =>
      if g.width == RawBands then
        Matrix(Grid(CleanBands, seq(|g.rows|, i requires 0 <= i < |g.rows| => MaskRow(g.rows[i]))))
      else
        DeleteFlat(g)
  }

  /** The `except:` path for a matrix whose width the mask does not fit: the
      flattened values without flat positions 61..83. */
  function DeleteFlat<T>(g: Grid<T>): (r: BandArray<T>)
    ensures r.Vector?
    ensures |Flatten(g.rows)| >= SpikeEnd ==>
      r == Vector(Flatten(g.rows)[..SpikeStart] + Flatten(g.rows)[SpikeEnd..])
    ensures forall k :: 0 <= k < |r.items| ==>
      RawIndex(k) < |Flatten(g.rows)| && r.items[k] == Flatten(g.rows)[RawIndex(k)]
  {
    Vector(DeleteSpike(Flatten(g.rows)))
  }

  /** The two paths agree: a 296-band spectrum cleaned as a vector and as the
      single row of a matrix gives the same 273 bands. */
  lemma CleanPathsAgree<T>(s: seq<T>)
    requires |s| == RawBands
    ensures CleanData(Matrix(Grid(RawBands, [s]))).grid.rows == [CleanData(Vector(s)).items]
    ensures |CleanData(Vector(s)).items| == CleanBands
  {
  }

  /** Every cleaned band of a full spectrum is the raw band at the same place
      below the spike and 23 places further on above it. */
  lemma CleanedBand<T>(s: seq<T>, k: nat)
    requires |s| >= SpikeEnd && k < |s| - (SpikeEnd - SpikeStart)
    ensures CleanData(Vector(s)).items[k] == s[if k < SpikeStart then k else k + (SpikeEnd - SpikeStart)]
  {
  }
}

=== FILE: coefficients.dfy ===
/** `parse_coefficients` (sp_extract.py:165-184): the photometric coefficient
    table, one row per line of a comma-separated file, with the first field
    of every line (the wavelength) dropped. Python's `float()` is a
    parameter: it maps a field to a number or rejects it. */
module Coefficients {
  import opened Base
  import opened Floats
  import opened Text

  /** The fields `float()` is applied to: `line.split(",")[1:]`. */
  function Fields(line: string): seq<string>
  {
    Split(line, ',')[1..]
  }

  /** `[float(s) for s in fields]`, None at the first field `float()` rejects. */
  function ParseFields(fields: seq<string>, parseFloat: string -> Option<Float>): (r: Option<seq<Float>>)
    ensures r.Some? <==> forall j :: 0 <= j < |fields| ==> parseFloat(fields[j]).Some?
    ensures r.Some? ==> (|r.value| == |fields|
      && forall j :: 0 <= j < |fields| ==> r.value[j] == parseFloat(fields[j]).value)
    decreases |fields|
  {
    if |fields| == 0 then Some([])
    else
      match parseFloat(fields[0])
      case None => None
      case Some(x) =>
        match ParseFields(fields[1..], parseFloat)
        case None => None
        case Some(rest) => Some([x] + rest)
  }

  /** The table: one row per line, in order; the first line holding a field
      `float()` rejects stops the parse with a ValueError. */
  function ParseCoefficients(lines: seq<string>, parseFloat: string -> Option<Float>): (r: Result<seq<seq<Float>>>)
    ensures r.Ok? <==> forall i :: 0 <= i < |lines| ==> ParseFields(Fields(lines[i]), parseFloat).Some?
    ensures r.Ok? ==> (|r.value| == |lines|
      && forall i :: 0 <= i < |lines| ==> r.value[i] == ParseFields(Fields(lines[i]), parseFloat).value)
    ensures r.Err? ==> (r.error.BadNumber? && r.error.line < |lines|
      && ParseFields(Fields(lines[r.error.line]), parseFloat).None?
      && forall h :: 0 <= h < r.error.line ==> ParseFields(Fields(lines[h]), parseFloat).Some?)
  {
    ParseFrom(lines, parseFloat, 0)
  }

  function ParseFrom(lines: seq<string>, parseFloat: string -> Option<Float>, start: nat): (r: Result<seq<seq<Float>>>)
    requires start <= |lines|
    ensures r.Ok? <==> forall i :: start <= i < |lines| ==> ParseFields(Fields(lines[i]), parseFloat).Some?
    ensures r.Ok? ==> (|r.value| == |lines| - start
      && forall i :: start <= i < |lines| ==> r.value[i - start] == ParseFields(Fields(lines[i]), parseFloat).value)
    ensures r.Err? ==> (r.error.BadNumber? && start <= r.error.line < |lines|
      && ParseFields(Fields(lines[r.error.line]), parseFloat).None?
      && forall h :: start <= h < r.error.line ==> ParseFields(Fields(lines[h]), parseFloat).Some?)
    decreases |lines| - start
  {
    if start == |lines| then Ok([])
    else
      match ParseFields(Fields(lines[start]), parseFloat)
      case None => Err(BadNumber(start))
      case Some(row) =>
        var rest :- ParseFrom(lines, parseFloat, start + 1);
        ParseFromCons(lines, parseFloat, start, row, rest);
        Ok([row] + rest)
  }

  /** The rows of ParseFrom: the row of line `start` followed by those of the
      later lines. */
  lemma ParseFromCons(lines: seq<string>, parseFloat: string -> Option<Float>, start: nat, row: seq<Float>,
                      rest: seq<seq<Float>>)
    requires start < |lines| && ParseFields(Fields(lines[start]), parseFloat) == Some(row)
    requires |rest| == |lines| - (start + 1)
    requires forall i :: start + 1 <= i < |lines| ==>
      ParseFields(Fields(lines[i]), parseFloat).Some? && rest[i - (start + 1)] == ParseFields(Fields(lines[i]), parseFloat).value
    ensures forall i :: start <= i < |lines| ==>
      ParseFields(Fields(lines[i]), parseFloat).Some? && ([row] + rest)[i - start] == ParseFields(Fields(lines[i]), parseFloat).value
  {
    forall i | start <= i < |lines|
      ensures ParseFields(Fields(lines[i]), parseFloat).Some?
      ensures ([row] + rest)[i - start] == ParseFields(Fields(lines[i]), parseFloat).value
    {
      if i > start {
        assert ([row] + rest)[i - start] == rest[i - (start + 1)];
      }
    }
  }

  /** A line written as a label followed by comma-free numeric fields parses
      back to exactly those numbers. */
  lemma ParseWrittenRow(name: string, fields: seq<string>, values: seq<Float>, parseFloat: string -> Option<Float>)
    requires ',' !in name
    requires |values| == |fields|
    requires forall j :: 0 <= j < |fields| ==> ',' !in fields[j] && parseFloat(fields[j]) == Some(values[j])
    ensures ParseFields(Fields(Join([name] + fields, ',')), parseFloat) == Some(values)
  {
    var parts := [name] + fields;
    assert forall k :: 0 <= k < |parts| ==> ',' !in parts[k];
    SplitJoin(parts, ',');
    assert Fields(Join(parts, ',')) == fields;
    var r := ParseFields(fields, parseFloat);
    assert r.Some?;
    assert r.value == values;
  }
}

=== FILE: continuum.dfy ===
/** `continuum_correction` (sp_extract.py:231-242) and its driver loop
    (sp_extract.py:276-280): a straight-line continuum through two anchor
    bands of one observation, and the spectrum divided by it. */
module Continuum {
  import opened Base
  import opened Floats

  /** The continuum-removed spectrum and the continuum it was divided by. */
  datatype Fit = Fit(removed: seq<Float>, baseline: seq<Float>)

  /** `y = m * wv_array + b` with `m = (y2 - y1) / (wv2 - wv1)` and
      `b = y1 - m * wv1` (sp_extract.py:237-239). */
  function Baseline(wv: seq<real>, y1: Float, y2: Float, wv1: real, wv2: real): (y: seq<Float>)
    ensures |y| == |wv|
  {
    var m := Div(Sub(y2, y1), Sub(Finite(wv2), Finite(wv1)));
    var b := Sub(y1, Mul(m, Finite(wv1)));
    seq(|wv|, k requires 0 <= k < |wv| => Add(Mul(m, Finite(wv[k])), b))
  }

  /** The baseline is the line through (wv1, y1) and (wv2, y2), in
      two-point form. */
  lemma BaselineIsLine(wv: seq<real>, y1: real, y2: real, wv1: real, wv2: real, k: nat)
    requires wv1 != wv2 && k < |wv|
    ensures Baseline(wv, Finite(y1), Finite(y2), wv1, wv2)[k]
      == Finite(y1 + (y2 - y1) * (wv[k] - wv1) / (wv2 - wv1))
  {
    var m := (y2 - y1) / (wv2 - wv1);
    assert m * wv[k] + (y1 - m * wv1) == y1 + m * (wv[k] - wv1);
    assert m * (wv[k] - wv1) == (y2 - y1) * (wv[k] - wv1) / (wv2 - wv1);
  }

  /** The baseline passes through both anchors. */
  lemma BaselineThroughAnchors(wv: seq<real>, y1: real, y2: real, i: nat, j: nat)
    requires i < |wv| && j < |wv| && wv[i] != wv[j]
    ensures Baseline(wv, Finite(y1), Finite(y2), wv[i], wv[j])[i] == Finite(y1)
    ensures Baseline(wv, Finite(y1), Finite(y2), wv[i], wv[j])[j] == Finite(y2)
  {
    BaselineIsLine(wv, y1, y2, wv[i], wv[j], i);
    BaselineIsLine(wv, y1, y2, wv[i], wv[j], j);
    assert (y2 - y1) * (wv[j] - wv[i]) / (wv[j] - wv[i]) == y2 - y1;
  }

  /** Equal anchor wavelengths or a non-finite anchor value make the whole
      baseline non-finite: numpy divides by zero without raising. */
  lemma BaselineDegenerate(wv: seq<real>, y1: Float, y2: Float, wv1: real, wv2: real, k: nat)
    requires wv1 == wv2 || y1.NonFinite? || y2.NonFinite?
    requires k < |wv|
    ensures Baseline(wv, y1, y2, wv1, wv2)[k] == NonFinite
  {
  }

  /** `continuum_correction` for one observation row, assigned back into the
      output rows (sp_extract.py:232-242, 280): an anchor past the end of the
      row is an IndexError; a wavelength vector that neither matches the row
      nor has a single entry cannot be broadcast against it. */
  function ContinuumRow(wv: seq<real>, row: seq<Float>, b0: nat, b1: nat): (r: Result<Fit>)
    requires b0 < |wv| && b1 < |wv|
    ensures r.Ok? <==> b0 < |row| && b1 < |row| && (|wv| == |row| || |wv| == 1)
    ensures r.Err? && (b0 >= |row| || b1 >= |row|) ==> r.error == IndexError
    ensures r.Ok? ==> |r.value.removed| == |row| && |r.value.baseline| == |row|
    ensures r.Ok? ==> forall k :: 0 <= k < |row| ==>
      r.value.baseline[k] == Baseline(wv, row[b0], row[b1], wv[b0], wv[b1])[if |wv| == 1 then 0 else k]
      && r.value.removed[k] == Div(row[k], r.value.baseline[k])
  {
    if b1 >= |row| || b0 >= |row| then Err(IndexError)
    else
      var y := Baseline(wv, row[b0], row[b1], wv[b0], wv[b1]);
      if |wv| == |row| then
        Ok(Fit(seq(|row|, k requires 0 <= k < |row| => Div(row[k], y[k])), y))
      else if |wv| == 1 then
        Ok(Fit(seq(|row|, k requires 0 <= k < |row| => Div(row[k], y[0])), seq(|row|, _ => y[0])))
      else
        Err(ShapeError)
  }

  /** The continuum-removed spectrum is 1 at both anchors. */
  lemma RemovedAtAnchors(wv: seq<real>, row: seq<Float>, b0: nat, b1: nat)
    requires b0 < |wv| && b1 < |wv| && |wv| == |row|
    requires wv[b0] != wv[b1]
    requires row[b0].Finite? && row[b0].v != 0.0 && row[b1].Finite? && row[b1].v != 0.0
    ensures ContinuumRow(wv, row, b0, b1).Ok?
    ensures ContinuumRow(wv, row, b0, b1).value.removed[b0] == One
    ensures ContinuumRow(wv, row, b0, b1).value.removed[b1] == One
  {
    BaselineThroughAnchors(wv, row[b0].v, row[b1].v, b0, b1);
    DivSelf(row[b0]);
    DivSelf(row[b1]);
  }

  /** A flat non-zero spectrum is its own continuum and comes out as all 1s. */
  lemma FlatSpectrum(wv: seq<real>, row: seq<Float>, b0: nat, b1: nat, c: real)
    requires b0 < |wv| && b1 < |wv| && |wv| == |row|
    requires wv[b0] != wv[b1] && c != 0.0
    requires forall k :: 0 <= k < |row| ==> row[k] == Finite(c)
    ensures ContinuumRow(wv, row, b0, b1).Ok?
    ensures forall k :: 0 <= k < |row| ==>
      ContinuumRow(wv, row, b0, b1).value.baseline[k] == Finite(c)
      && ContinuumRow(wv, row, b0, b1).value.removed[k] == One
  {
    var fit := ContinuumRow(wv, row, b0, b1).value;
    forall k | 0 <= k < |row|
      ensures fit.baseline[k] == Finite(c) && fit.removed[k] == One
    {
      BaselineIsLine(wv, c, c, wv[b0], wv[b1], k);
      DivSelf(Finite(c));
    }
  }

  /** The loop over observations (sp_extract.py:273, 279-280): every row of the
      photometrically corrected matrix replaced by its continuum-removed
      spectrum, and its continuum kept in a matrix of the same shape. */
  method ContinuumAll(wv: seq<real>, ref: Grid<Float>, b0: nat, b1: nat)
    returns (r: Result<(Grid<Float>, Grid<Float>)>)
    requires Rectangular(ref)
    requires b0 < |wv| && b1 < |wv|
    ensures r.Ok? <==> (|ref.rows| == 0 ||
      (b0 < ref.width && b1 < ref.width && (|wv| == ref.width || |wv| == 1)))
    ensures r.Ok? ==> Rectangular(r.value.0) && Rectangular(r.value.1)
    ensures r.Ok? ==> r.value.0.width == ref.width && r.value.1.width == ref.width
    ensures r.Ok? ==> |r.value.0.rows| == |ref.rows| && |r.value.1.rows| == |ref.rows|
    ensures r.Ok? ==> forall i :: 0 <= i < |ref.rows| ==>
      ContinuumRow(wv, ref.rows[i], b0, b1) == Ok(Fit(r.value.0.rows[i], r.value.1.rows[i]))
  {
    var removed: seq<seq<Float>> := [];
    var baseline: seq<seq<Float>> := [];
    var i := 0;
    while i < |ref.rows|
      invariant 0 <= i <= |ref.rows| && |removed| == i && |baseline| == i
      invariant forall n :: 0 <= n < i ==> ContinuumRow(wv, ref.rows[n], b0, b1) == Ok(Fit(removed[n], baseline[n]))
    {
      var fit := ContinuumRow(wv, ref.rows[i], b0, b1);
      if fit.Err? {
        return Err(fit.error);
      }
      removed := removed + [fit.value.removed];
      baseline := baseline + [fit.value.baseline];
      i := i + 1;
    }
    if |ref.rows| > 0 {
      assert |ref.rows[0]| == ref.width && ContinuumRow(wv, ref.rows[0], b0, b1).Ok?;
    }
    return Ok((Grid(ref.width, removed), Grid(ref.width, baseline)));
  }
}

=== FILE: decode.dfy ===
/** The binary half of `openspc` (sp_extract.py:77-111): seeking into the
    product file and decoding big-endian unsigned 16-bit arrays into scaled
    wavelength, radiance and reflectance, and the per-observation angle words
    of the ancillary table. The file is a byte sequence; `seek` and `read`
    become slicing. */
module Decode {
  import opened Base
  import opened Label

  /** One byte of the product file. */
  newtype byte = x: int | 0 <= x < 256

  /** Bands per spectrum row, before cleaning. */
  const Bands: nat := 296

  const WavelengthScale: real := 0.1
  const RadianceScale: real := 0.01
  const ReflectanceScale: real := 0.0001

  /** One `>H` value: high byte first. */
  function U16(hi: byte, lo: byte): nat
  {
    hi as int * 256 + lo as int
  }

  function EncodeU16(v: nat): seq<byte>
    requires v < 0x1_0000
  {
    [(v / 256) as byte, (v % 256) as byte]
  }

  /** `file.seek(pos); file.read(n)`: a negative position is an error; a
      negative count reads to the end; a read past the end comes back short. */
  function Read(file: seq<byte>, pos: int, n: int): (r: Result<seq<byte>>)
    ensures r.Ok? <==> pos >= 0
    ensures r.Ok? ==> r.value <= file[Min(pos, |file|)..]
    ensures r.Ok? && n >= 0 ==> |r.value| == Min(n, |file| - Min(pos, |file|))
    ensures r.Ok? && n < 0 ==> r.value == file[Min(pos, |file|)..]
  {
    if pos < 0 then Err(SeekError)
    else
      var start := Min(pos, |file|);
      Ok(if n < 0 then file[start..] else file[start..Min(start + n, |file|)])
  }

  /** The values of a byte string of even length, two bytes each. */
  function U16s(data: seq<byte>): (r: seq<nat>)
    requires |data| % 2 == 0
    ensures |r| == |data| / 2
    ensures forall k :: 0 <= k < |r| ==> r[k] == U16(data[2 * k], data[2 * k + 1]) && r[k] < 0x1_0000
    decreases |data|
  {
    if |data| == 0 then [] else [U16(data[0], data[1])] + U16s(data[2..])
  }

  function EncodeU16s(vals: seq<nat>): (data: seq<byte>)
    requires forall k :: 0 <= k < |vals| ==> vals[k] < 0x1_0000
    decreases |vals|
  {
    if |vals| == 0 then [] else EncodeU16(vals[0]) + EncodeU16s(vals[1..])
  }

  /** Encoding 16-bit values big-endian and decoding them gives them back. */
  lemma {:induction false} DecodeEncode(vals: seq<nat>)
    requires forall k :: 0 <= k < |vals| ==> vals[k] < 0x1_0000
    ensures |EncodeU16s(vals)| == 2 * |vals|
    ensures U16s(EncodeU16s(vals)) == vals
    decreases |vals|
  {
    if |vals| > 0 {
      DecodeEncode(vals[1..]);
      var data := EncodeU16s(vals);
      assert data[2..] == EncodeU16s(vals[1..]);
      assert vals == [vals[0]] + vals[1..];
    }
  }

  lemma ByteSplit(hi: byte, lo: byte)
    ensures EncodeU16(U16(hi, lo)) == [hi, lo]
  {
    var v := U16(hi, lo);
    assert v / 256 == hi as int;
    assert v % 256 == lo as int;
  }

  /** Decoding bytes and encoding the values again gives back the bytes. */
  lemma {:induction false} EncodeDecode(data: seq<byte>)
    requires |data| % 2 == 0
    ensures EncodeU16s(U16s(data)) == data
    decreases |data|
  {
    if |data| > 0 {
      EncodeDecode(data[2..]);
      var vals := U16s(data);
      assert vals[1..] == U16s(data[2..]);
      ByteSplit(data[0], data[1]);
      assert data == [data[0], data[1]] + data[2..];
    }
  }

  /** `np.fromstring(data, dtype='>H')`: an odd byte count is a ValueError. */
  function BigEndianU16s(data: seq<byte>): (r: Result<seq<nat>>)
    ensures r.Ok? <==> |data| % 2 == 0
    ensures r.Ok? ==> |r.value| == |data| / 2
    ensures r.Ok? ==> forall k :: 0 <= k < |r.value| ==> r.value[k] == U16(data[2 * k], data[2 * k + 1])
  {
    if |data| % 2 != 0 then Err(SizeError) else Ok(U16s(data))
  }

  /** One stored value times its scale factor. */
  function Scaled(v: nat, scale: real): real
  {
    v as real * scale
  }

  /** `array.astype('float') * scale` */
  function Scale(vals: seq<nat>, scale: real): seq<real>
  {
    seq(|vals|, k requires 0 <= k < |vals| => Scaled(vals[k], scale))
  }

  /** `vals.reshape(rows, 296)`; numpy 1.16 and older take any negative row
      count as the unknown dimension and infer it from the size. */
  function Reshape(vals: seq<real>, rows: int): (r: Result<Grid<real>>)
    ensures r.Ok? <==> (rows < 0 && |vals| % Bands == 0) || (rows >= 0 && |vals| == rows * Bands)
    ensures r.Ok? ==> Rectangular(r.value) && r.value.width == Bands && |r.value.rows| * Bands == |vals|
    ensures r.Ok? && rows >= 0 ==> |r.value.rows| == rows
    ensures r.Ok? ==> forall i, k :: 0 <= i < |r.value.rows| && 0 <= k < Bands ==> r.value.rows[i][k] == vals[i * Bands + k]
  {
    if (rows < 0 && |vals| % Bands == 0) || (rows >= 0 && |vals| == rows * Bands) then
      var n := |vals| / Bands;
      Ok(Grid(Bands, seq(n, i requires 0 <= i < n => vals[i * Bands .. i * Bands + Bands])))
    else
      Err(SizeError)
  }

  /** sp_extract.py:78-81: 296 wavelengths at `wav_offset - 1`, in tenths. */
  function DecodeWavelengths(file: seq<byte>, f: Fields): (r: Result<seq<real>>)
    ensures r.Ok? ==> f.wav.Some? && f.wav.value >= 1 && |r.value| <= Bands
    ensures f.wav.Some? && f.wav.value >= 1 && f.wav.value - 1 + 2 * Bands <= |file| ==> r.Ok? && |r.value| == Bands
    ensures r.Ok? ==> forall k :: 0 <= k < |r.value| ==>
      f.wav.value + 2 * k < |file| &&
      r.value[k] == U16(file[f.wav.value - 1 + 2 * k], file[f.wav.value + 2 * k]) as real / 10.0
  {
    var offset :- Need(f.wav, "wav_offset");
    var data :- Read(file, offset - 1, Bands * 2);
    var vals :- BigEndianU16s(data);
    Ok(Scale(vals, WavelengthScale))
  }

  /** sp_extract.py:84-96: `rows` spectra of 296 values at `offset - 1`,
      scaled and reshaped to rows x 296. */
  function DecodeRows(file: seq<byte>, offset: Option<int>, rows: Option<int>,
                      offsetName: string, rowsName: string, scale: real): (r: Result<Grid<real>>)
    ensures r.Ok? ==> offset.Some? && offset.value >= 1 && rows.Some?
    ensures r.Ok? ==> Rectangular(r.value) && r.value.width == Bands
  {
    var start :- Need(offset, offsetName);
    var count :- Need(rows, rowsName);
    var data :- Read(file, start - 1, count * Bands * 2);
    var vals :- BigEndianU16s(data);
    Reshape(Scale(vals, scale), count)
  }

  /** With a non-negative row count, the decode succeeds exactly when the file
      holds all `rows * 296` values (a read of nothing succeeds anywhere), and
      then there are `rows` rows. */
  lemma DecodeRowsComplete(file: seq<byte>, offset: int, rows: int, offsetName: string, rowsName: string, scale: real)
    requires offset >= 1 && rows >= 0
    ensures var r := DecodeRows(file, Some(offset), Some(rows), offsetName, rowsName, scale);
      (r.Ok? <==> rows == 0 || offset - 1 + rows * Bands * 2 <= |file|) && (r.Ok? ==> |r.value.rows| == rows)
  {
    var want := rows * Bands * 2;
    assert want == rows * 592;
    var data := Read(file, offset - 1, want).value;
    if rows == 0 || offset - 1 + want <= |file| {
      assert |data| == want;
      var vals := BigEndianU16s(data).value;
      assert |vals| == rows * Bands;
      assert |Scale(vals, scale)| == rows * Bands;
    } else {
      assert |data| < want;
      if |data| % 2 == 0 {
        var vals := BigEndianU16s(data).value;
        assert |vals| < rows * Bands;
      }
    }
  }

  /** With a negative row count, `read` takes the rest of the file and the
      reshape infers the row count: the decode succeeds exactly when the rest
      of the file is a whole number of 592-byte rows, and then has that many. */
  lemma DecodeRowsInferred(file: seq<byte>, offset: int, rows: int, offsetName: string, rowsName: string, scale: real)
    requires offset >= 1 && rows < 0
    ensures var rest := |file| - Min(offset - 1, |file|);
      var r := DecodeRows(file, Some(offset), Some(rows), offsetName, rowsName, scale);
      (r.Ok? <==> rest % (2 * Bands) == 0) && (r.Ok? ==> |r.value.rows| * (2 * Bands) == rest)
  {
    var rest := |file| - Min(offset - 1, |file|);
    var data := Read(file, offset - 1, rows * Bands * 2).value;
    assert |data| == rest;
    if rest % 2 == 0 {
      var vals := BigEndianU16s(data).value;
      assert |Scale(vals, scale)| == rest / 2;
      assert rest % (2 * Bands) == 0 <==> (rest / 2) % Bands == 0;
    } else {
      assert rest % (2 * Bands) != 0;
    }
  }

  /** Row i, band k of the decoded matrix is the big-endian value at byte
      `offset - 1 + 592 i + 2 k`, scaled. */
  lemma DecodeRowsElement(file: seq<byte>, offset: Option<int>, rows: Option<int>,
                          offsetName: string, rowsName: string, scale: real, i: int, k: int)
    requires DecodeRows(file, offset, rows, offsetName, rowsName, scale).Ok?
    requires 0 <= i < |DecodeRows(file, offset, rows, offsetName, rowsName, scale).value.rows| && 0 <= k < Bands
    ensures offset.value + i * Bands * 2 + 2 * k < |file|
    ensures DecodeRows(file, offset, rows, offsetName, rowsName, scale).value.rows[i][k]
      == Scaled(U16(file[offset.value - 1 + i * Bands * 2 + 2 * k], file[offset.value + i * Bands * 2 + 2 * k]), scale)
  {
    var start := offset.value;
    var count := rows.value;
    var read := Read(file, start - 1, count * Bands * 2);
    assert read.Ok?;
    var data := read.value;
    var decoded := BigEndianU16s(data);
    assert decoded.Ok?;
    var vals := decoded.value;
    assert vals == U16s(data);
    var shaped := Reshape(Scale(vals, scale), count);
    assert shaped == DecodeRows(file, offset, rows, offsetName, rowsName, scale);
    ElementOfRows(file, start, data, vals, scale, shaped.value, i, k);
    RowMajorIndex(i, k, |shaped.value.rows|);
  }

  lemma ElementOfRows(file: seq<byte>, start: int, data: seq<byte>, vals: seq<nat>, scale: real, g: Grid<real>, i: int, k: int)
    requires start >= 1 && data <= file[Min(start - 1, |file|)..]
    requires |data| % 2 == 0 && vals == U16s(data)
    requires Rectangular(g) && g.width == Bands && |g.rows| * Bands == |vals|
    requires forall i, k :: 0 <= i < |g.rows| && 0 <= k < Bands ==> g.rows[i][k] == Scale(vals, scale)[i * Bands + k]
    requires 0 <= i < |g.rows| && 0 <= k < Bands
    ensures var p := start - 1 + 2 * (i * Bands + k);
      p + 1 < |file| && g.rows[i][k] == Scaled(U16(file[p], file[p + 1]), scale)
  {
    var j := i * Bands + k;
    RowMajorIndex(i, k, |g.rows|);
    ValueOfRead(file, start - 1, data, vals, j);
    assert g.rows[i][k] == Scale(vals, scale)[j];
  }

  lemma ValueOfRead(file: seq<byte>, pos: int, data: seq<byte>, vals: seq<nat>, j: int)
    requires 0 <= pos && data <= file[Min(pos, |file|)..]
    requires |data| % 2 == 0 && vals == U16s(data) && 0 <= j < |vals|
    ensures pos + 2 * j + 1 < |file|
    ensures vals[j] == U16(file[pos + 2 * j], file[pos + 2 * j + 1])
  {
    ByteOfRead(file, pos, data, 2 * j);
    ByteOfRead(file, pos, data, 2 * j + 1);
  }

  /** Row-major index arithmetic for a 296-wide matrix. */
  lemma RowMajorIndex(i: int, k: int, n: int)
    requires 0 <= i < n && 0 <= k < Bands
    ensures 0 <= i * Bands + k < n * Bands
    ensures 2 * (i * Bands + k) == i * Bands * 2 + 2 * k
  {
    assert i * 296 + k < (i + 1) * 296 <= n * 296;
  }

  lemma ByteOfRead(file: seq<byte>, pos: int, data: seq<byte>, j: int)
    requires 0 <= pos && data <= file[Min(pos, |file|)..] && 0 <= j < |data|
    ensures pos + j < |file| && data[j] == file[pos + j]
  {
    assert data[j] == file[Min(pos, |file|)..][j];
  }

  /** The byte position of an angle field of observation `n`
      (sp_extract.py:102, 105, 108): both the row and the field offsets are
      1-based, so the position ends up two below their plain sum. */
  function AnglePos(ancillary: int, rowBytes: int, n: int, fieldOffset: int): (p: int)
    ensures p == ancillary + n * rowBytes + fieldOffset - 2
  {
    ancillary + (n * rowBytes - 1) + (fieldOffset - 1)
  }

  predicate Readable(file: seq<byte>, p: int)
  {
    0 <= p && p + 4 <= |file|
  }

  /** `label.seek(p); unpack('>f', label.read(4))`, keeping the 4 bytes undecoded. */
  function ReadWord(file: seq<byte>, p: int): (r: Result<seq<byte>>)
    ensures r.Ok? <==> Readable(file, p)
    ensures r.Ok? ==> r.value == file[p..p + 4]
  {
    var data :- Read(file, p, 4);
    if |data| == 4 then Ok(data) else Err(ShortRead)
  }

  /** The angle fields are all known. */
  predicate HasLayout(f: Fields)
  {
    f.ancillary.Some? && f.rowBytes.Some? && f.emission.Some? && f.incidence.Some? && f.phase.Some?
  }

  function FieldPos(f: Fields, n: int, fieldOffset: int): int
    requires HasLayout(f)
  {
    f.ancillary.value + n * f.rowBytes.value + fieldOffset - 2
  }

  /** The three angle words of observation `n` (sp_extract.py:101-110): read
      emission, incidence, phase in that order and keep them as
      [incidence, emission, phase]. */
  function ObservationAngles(file: seq<byte>, f: Fields, n: int): (r: Result<Angles<seq<byte>>>)
    ensures r.Ok? <==> (HasLayout(f) && Readable(file, FieldPos(f, n, f.emission.value))
      && Readable(file, FieldPos(f, n, f.incidence.value)) && Readable(file, FieldPos(f, n, f.phase.value)))
    ensures r.Ok? ==>
      var e := FieldPos(f, n, f.emission.value);
      var i := FieldPos(f, n, f.incidence.value);
      var p := FieldPos(f, n, f.phase.value);
      r.value == Angles(file[i..i + 4], file[e..e + 4], file[p..p + 4])
  {
    var ancillary :- Need(f.ancillary, "ancillary_offset");
    var rowBytes :- Need(f.rowBytes, "row_bytes");
    var emissionOffset :- Need(f.emission, "emission_offset");
    var emission :- ReadWord(file, AnglePos(ancillary, rowBytes, n, emissionOffset));
    var incidenceOffset :- Need(f.incidence, "incidence_offset");
    var incidence :- ReadWord(file, AnglePos(ancillary, rowBytes, n, incidenceOffset));
    var phaseOffset :- Need(f.phase, "phase_offset");
    var phase :- ReadWord(file, AnglePos(ancillary, rowBytes, n, phaseOffset));
    Ok(Angles(incidence, emission, phase))
  }

  /** The `for n in range(num_observations)` loop (sp_extract.py:99-111): one
      row of angle words per observation, none when the count is not positive. */
  method ReadGeometry(file: seq<byte>, f: Fields) returns (r: Result<seq<Angles<seq<byte>>>>)
    ensures r.Ok? <==> (f.points.Some? &&
      forall n :: 0 <= n < f.points.value ==> ObservationAngles(file, f, n).Ok?)
    ensures r.Ok? ==> |r.value| == (if f.points.value > 0 then f.points.value else 0)
    ensures r.Ok? ==> forall n :: 0 <= n < |r.value| ==> Ok(r.value[n]) == ObservationAngles(file, f, n)
  {
    var count :- Need(f.points, "num_observations");
    var rows: seq<Angles<seq<byte>>> := [];
    var n := 0;
    if count <= 0 {
      return Ok([]);
    }
    while n < count
      invariant 0 <= n <= count
      invariant |rows| == n
      invariant forall m :: 0 <= m < n ==> Ok(rows[m]) == ObservationAngles(file, f, m)
    {
      var angles := ObservationAngles(file, f, n);
      if angles.Err? {
        return Err(angles.error);
      }
      rows := rows + [angles.value];
      n := n + 1;
    }
    return Ok(rows);
  }

  /** What `openspc` returns, minus the CSV side effect. */
  datatype Product = Product(
    wavelengths: seq<real>,
    radiance: Grid<real>,
    reflectance: Grid<real>,
    geometry: seq<Angles<seq<byte>>>)

  /** `openspc` after the label scan: decode wavelengths, radiance,
      reflectance and angles, in the source's order. */
  method DecodeProduct(file: seq<byte>, f: Fields) returns (r: Result<Product>)
    ensures r.Ok? <==>
      && DecodeWavelengths(file, f).Ok?
      && DecodeRows(file, f.rad, f.radLines, "rad_offset", "rad_lines", RadianceScale).Ok?
      && DecodeRows(file, f.ref, f.refLines, "ref_offset", "ref_lines", ReflectanceScale).Ok?
      && f.points.Some? && (forall n :: 0 <= n < f.points.value ==> ObservationAngles(file, f, n).Ok?)
    ensures (f.wav.None? || f.rad.None? || f.radLines.None? || f.ref.None? || f.refLines.None? || f.points.None?) ==> r.Err?
    ensures f.points.Some? && f.points.value > 0 && !HasLayout(f) ==> r.Err?
    ensures r.Ok? ==> r.value.wavelengths == DecodeWavelengths(file, f).value
    ensures r.Ok? ==> r.value.radiance == DecodeRows(file, f.rad, f.radLines, "rad_offset", "rad_lines", RadianceScale).value
    ensures r.Ok? ==> r.value.reflectance == DecodeRows(file, f.ref, f.refLines, "ref_offset", "ref_lines", ReflectanceScale).value
    ensures r.Ok? ==> |r.value.geometry| == (if f.points.value > 0 then f.points.value else 0)
    ensures r.Ok? ==> forall n :: 0 <= n < |r.value.geometry| ==> Ok(r.value.geometry[n]) == ObservationAngles(file, f, n)
  {
    assert ObservationAngles(file, f, 0).Ok? ==> HasLayout(f);
    var wavelengths :- DecodeWavelengths(file, f);
    var radiance :- DecodeRows(file, f.rad, f.radLines, "rad_offset", "rad_lines", RadianceScale);
    var reflectance :- DecodeRows(file, f.ref, f.refLines, "ref_offset", "ref_lines", ReflectanceScale);
    var geometry :- ReadGeometry(file, f);
    return Ok(Product(wavelengths, radiance, reflectance, geometry));
  }
}

=== FILE: floats.dfy ===
/** numpy float64 arithmetic with rounding ignored. A value is either a finite
    real or non-finite (inf, -inf or nan, not told apart). numpy never raises
    on these: a division by zero or `**1.5` of a negative base yields a
    non-finite value, and a non-finite operand makes the result non-finite. */
module Floats {

  datatype Float = Finite(v: real) | NonFinite

  const One: Float := Finite(1.0)
  const Two: Float := Finite(2.0)

  function Add(a: Float, b: Float): Float
  {
    if a.Finite? && b.Finite? then Finite(a.v + b.v) else NonFinite
  }

  function Sub(a: Float, b: Float): Float
  {
    if a.Finite? && b.Finite? then Finite(a.v - b.v) else NonFinite
  }

  function Mul(a: Float, b: Float): Float
  {
    if a.Finite? && b.Finite? then Finite(a.v * b.v) else NonFinite
  }

  /** x / 0 is inf or nan; x / inf (which IEEE makes 0) is kept non-finite. */
  function Div(a: Float, b: Float): Float
  {
    if a.Finite? && b.Finite? && b.v != 0.0 then Finite(a.v / b.v) else NonFinite
  }

  /** The elementary functions the photometric model calls, left uninterpreted:
      `cos(radians(x))`, `tan(radians(x))` and `x ** 1.5` for x >= 0. */
  datatype Math = Math(cosDeg: real -> real, tanDeg: real -> real, pow15: real -> real)

  function Cos(m: Math, x: Float): Float
  {
    if x.Finite? then Finite(m.cosDeg(x.v)) else NonFinite
  }

  function Tan(m: Math, x: Float): Float
  {
    if x.Finite? then Finite(m.tanDeg(x.v)) else NonFinite
  }

  /** `x ** 1.5`: nan for a negative base. */
  function Pow15(m: Math, x: Float): Float
  {
    if x.Finite? && x.v >= 0.0 then Finite(m.pow15(x.v)) else NonFinite
  }

  lemma DivSelf(x: Float)
    requires x.Finite? && x.v != 0.0
    ensures Div(x, x) == One
  {
  }

  lemma MulOne(x: Float)
    ensures Mul(x, One) == x
  {
  }
}

=== FILE: label.dfy ===
/** The label scan of `openspc` (sp_extract.py:44-75): one forward pass over
    the label's text lines that picks byte offsets and counts out of fixed
    `KEY = VALUE` lines, and stops at the quality-assessment object.

    The scan is a fold over the line sequence. A field the scan never assigns
    stays `None`; Python only notices when the decoder first reads it (an
    unbound local), which `Base.Need` models. */
module Label {
  import opened Base
  import opened Text

  const WavPointer := "^SP_SPECTRUM_WAV"
  const RadPointer := "^SP_SPECTRUM_RAD"
  const RefPointer := "^SP_SPECTRUM_REF"
  const RadObject := "OBJECT                               = SP_SPECTRUM_RAD"
  const RefObject := "OBJECT                               = SP_SPECTRUM_REF"
  const EmissionName := "NAME                         = \"EMISSION_ANGLE\""
  const IncidenceName := "NAME                         = \"INCIDENCE_ANGLE\""
  const PhaseName := "NAME                         = \"PHASE_ANGLE\""
  const PointCount := "NORMAL_SP_POINT_NUM"
  const RowBytesKey := "ROW_BYTES"
  const AncillaryPointer := "^ANCILLARY_AND_SUPPLEMENT_DATA"
  const QaObject := "OBJECT                               = SP_SPECTRUM_QA"

  /** An angle field's START_BYTE sits this many lines below its NAME line. */
  const AngleSkip: nat := 3

  /** `int(line.split('=')[1].split(" ")[1])`: the first token after `= `. */
  function PointerValue(line: string): Option<int>
  {
    match Piece(line, '=', 1)
    case None => None
    case Some(rhs) =>
      match Piece(rhs, ' ', 1)
      case None => None
      case Some(token) => ParseInt(token)
  }

  /** `int(line.split("=")[1])` */
  function AssignedValue(line: string): Option<int>
  {
    match Piece(line, '=', 1)
    case None => None
    case Some(rhs) => ParseInt(rhs)
  }

  /** `int(line.split("=")[1].split("<")[0])`: the number before a `<UNIT>`. */
  function AncillaryValue(line: string): Option<int>
  {
    match Piece(line, '=', 1)
    case None => None
    case Some(rhs) =>
      match Piece(rhs, '<', 0)
      case None => None
      case Some(token) => ParseInt(token)
  }

  /** How a field's integer is read from the line its key points at. */
  datatype Reader = PointerToken | Assigned | BeforeUnit

  function ReadValue(r: Reader, line: string): Option<int>
  {
    match r
    case PointerToken => PointerValue(line)
    case Assigned => AssignedValue(line)
    case BeforeUnit => AncillaryValue(line)
  }

  /** The text a reader hands to `int()`, or None where indexing the result
      of `split` raises IndexError: `split("=")[1]` on a line without `=`,
      or `split(" ")[1]` on a pointer value without a second token. */
  function Token(r: Reader, line: string): Option<string>
  {
    match Piece(line, '=', 1)
    case None => None
    case Some(rhs) =>
      match r
      case PointerToken => Piece(rhs, ' ', 1)
      case Assigned => Some(rhs)
      case BeforeUnit => Piece(rhs, '<', 0)
  }

  /** The exception a failed read of `line` (label line `at`) raises:
      IndexError when the token is missing, ValueError when `int()` rejects it. */
  function ReadError(r: Reader, line: string, at: nat): Error
  {
    if Token(r, line).None? then LabelIndex(at) else LabelValue(at)
  }

  /** Each reader is `int()` of its token, so a read fails exactly when the
      token is missing (IndexError) or is not an integer (ValueError). */
  lemma ReadValueOfToken(r: Reader, line: string, at: nat)
    ensures ReadValue(r, line) == if Token(r, line).None? then None else ParseInt(Token(r, line).value)
    ensures Token(r, line).None? ==> ReadValue(r, line).None? && ReadError(r, line, at) == LabelIndex(at)
    ensures Token(r, line).Some? && ReadValue(r, line).None? ==>
      ParseInt(Token(r, line).value).None? && ReadError(r, line, at) == LabelValue(at)
  {
  }

  /** Which lines raise which exception: IndexError only where even the
      pointer token is missing, ValueError only on a line with an `=`. */
  lemma ReadErrorLine(r: Reader, line: string, at: nat)
    ensures ReadError(r, line, at).LabelIndex? ==> Token(PointerToken, line).None?
    ensures ReadError(r, line, at).LabelValue? ==> Token(Assigned, line).Some?
  {
  }

  /** A matched line without `=` raises IndexError, whichever way it is read. */
  lemma {:induction false} NoEqualsIndexError(r: Reader, line: string, at: nat)
    requires '=' !in line
    ensures ReadValue(r, line).None? && ReadError(r, line, at) == LabelIndex(at)
  {
    SplitNone(line, '=');
  }

  /** The locals the scan assigns, `None` until their key is seen. */
  datatype Fields = Fields(
    wav: Option<int>,        // wav_offset
    rad: Option<int>,        // rad_offset
    ref: Option<int>,        // ref_offset
    radLines: Option<int>,   // rad_lines
    refLines: Option<int>,   // ref_lines
    emission: Option<int>,   // emission_offset
    incidence: Option<int>,  // incidence_offset
    phase: Option<int>,      // phase_offset
    points: Option<int>,     // num_observations
    rowBytes: Option<int>,   // row_bytes
    ancillary: Option<int>)  // ancillary_offset

  const Unset := Fields(None, None, None, None, None, None, None, None, None, None, None)

  /** `if key in line: x = value`, on the line the iteration currently holds. */
  function Assign(line: string, key: string, reader: Reader, current: Option<int>, at: nat): (r: Result<Option<int>>)
    ensures !Contains(line, key) ==> r == Ok(current)
    ensures Contains(line, key) ==> (r.Ok? <==> ReadValue(reader, line).Some?) && (r.Ok? ==> r.value == ReadValue(reader, line))
    ensures r.Err? ==> r.error == ReadError(reader, line, at)
  {
    var value := ReadValue(reader, line);
    if !Contains(line, key) then Ok(current)
    else if value.Some? then Ok(value)
    else Err(ReadError(reader, line, at))
  }

  /** Where the iteration stands after a test that may call `label.next()`. */
  datatype Cursor = Cursor(pos: nat, value: Option<int>)

  /** `if key in line: line = label.next()` (`skip` times) `; x = int(line.split("=")[1])`.
      The advanced line is what the later tests of the same iteration see. */
  function AssignAfter(lines: seq<string>, c: nat, key: string, skip: nat, current: Option<int>): (r: Result<Cursor>)
    requires c < |lines|
    ensures !Contains(lines[c], key) ==> r == Ok(Cursor(c, current))
    ensures Contains(lines[c], key) && r.Ok? ==>
      r.value.pos == c + skip < |lines| && r.value.value.Some? && AssignedValue(lines[c + skip]) == r.value.value
    ensures r == Err(LabelEnded) <==> Contains(lines[c], key) && c + skip >= |lines|
    ensures Contains(lines[c], key) && c + skip < |lines| ==> (r.Ok? <==> AssignedValue(lines[c + skip]).Some?)
    ensures r.Err? && r.error != LabelEnded ==>
      c + skip < |lines| && AssignedValue(lines[c + skip]).None? && r.error == ReadError(Assigned, lines[c + skip], c + skip)
    ensures r.Err? && skip > 0 ==> ValueLineFailed(lines, c, r.error)
  {
    if !Contains(lines[c], key) then Ok(Cursor(c, current))
    else if c + skip >= |lines| then Err(LabelEnded)
    else
      var v := AssignedValue(lines[c + skip]);
      if v.Some? then Ok(Cursor(c + skip, v)) else Err(ReadError(Assigned, lines[c + skip], c + skip))
  }

  /** The first three tests of the loop body (sp_extract.py:46-51): pointer keys. */
  function PointerTests(line: string, at: nat, st: Fields): (r: Result<Fields>)
    ensures r.Ok? <==> ((Contains(line, WavPointer) || Contains(line, RadPointer) || Contains(line, RefPointer))
      ==> PointerValue(line).Some?)
    ensures r.Err? ==> r.error == ReadError(PointerToken, line, at)
    ensures r.Ok? ==> r.value.(wav := st.wav, rad := st.rad, ref := st.ref) == st
    ensures r.Ok? ==> r.value.wav == (if Contains(line, WavPointer) then PointerValue(line) else st.wav)
    ensures r.Ok? ==> r.value.rad == (if Contains(line, RadPointer) then PointerValue(line) else st.rad)
    ensures r.Ok? ==> r.value.ref == (if Contains(line, RefPointer) then PointerValue(line) else st.ref)
  {
    var wav :- Assign(line, WavPointer, PointerToken, st.wav, at);
    var rad :- Assign(line, RadPointer, PointerToken, st.rad, at);
    var ref :- Assign(line, RefPointer, PointerToken, st.ref, at);
    Ok(st.(wav := wav, rad := rad, ref := ref))
  }

  /** The line holds one of the keys whose value sits on a later line. */
  predicate ObjectKey(line: string)
  {
    Contains(line, RadObject) || Contains(line, RefObject)
    || Contains(line, EmissionName) || Contains(line, IncidenceName) || Contains(line, PhaseName)
  }

  /** A line position together with the locals assigned so far. */
  datatype At = At(pos: nat, fields: Fields)

  /** How a test that reads a later line fails: the label ends first
      (StopIteration), or the line it reads, below line `c`, is not an
      integer assignment (IndexError without `=`, ValueError otherwise). */
  predicate ValueLineFailed(lines: seq<string>, c: nat, e: Error)
  {
    || e == LabelEnded
    || ((e.LabelIndex? || e.LabelValue?) && c < e.line < |lines|
        && AssignedValue(lines[e.line]).None? && e == ReadError(Assigned, lines[e.line], e.line))
  }

  /** The record-count tests (sp_extract.py:52-57): each reads the line below
      its OBJECT line. */
  function CountTests(lines: seq<string>, c: nat, st: Fields): (r: Result<At>)
    requires c < |lines|
    ensures r.Ok? ==> c <= r.value.pos < |lines|
    ensures r.Ok? ==> r.value.fields.(radLines := st.radLines, refLines := st.refLines) == st
    ensures !Contains(lines[c], RadObject) && !Contains(lines[c], RefObject) ==> r == Ok(At(c, st))
    ensures r.Ok? && Contains(lines[c], RadObject) ==>
      c + 1 < |lines| && r.value.fields.radLines == AssignedValue(lines[c + 1])
    ensures r.Ok? && !Contains(lines[c], RadObject) && Contains(lines[c], RefObject) ==>
      c + 1 < |lines| && r.value.fields.refLines == AssignedValue(lines[c + 1])
    ensures Contains(lines[c], RadObject) && (c + 1 < |lines| ==> !Contains(lines[c + 1], RefObject)) ==>
      (r.Ok? <==> c + 1 < |lines| && AssignedValue(lines[c + 1]).Some?)
    ensures !Contains(lines[c], RadObject) && Contains(lines[c], RefObject) ==>
      (r.Ok? <==> c + 1 < |lines| && AssignedValue(lines[c + 1]).Some?)
    ensures r.Err? ==> ValueLineFailed(lines, c, r.error)
  {
    var a :- AssignAfter(lines, c, RadObject, 1, st.radLines);
    var b :- AssignAfter(lines, a.pos, RefObject, 1, st.refLines);
    Ok(At(b.pos, st.(radLines := a.value, refLines := b.value)))
  }

  /** The angle tests (sp_extract.py:58-66): each reads the line three below
      its NAME line. */
  function AngleTests(lines: seq<string>, c: nat, st: Fields): (r: Result<At>)
    requires c < |lines|
    ensures r.Ok? ==> c <= r.value.pos < |lines|
    ensures r.Ok? ==> r.value.fields.(emission := st.emission, incidence := st.incidence, phase := st.phase) == st
    ensures !Contains(lines[c], EmissionName) && !Contains(lines[c], IncidenceName) && !Contains(lines[c], PhaseName)
      ==> r == Ok(At(c, st))
    ensures r.Ok? && Contains(lines[c], EmissionName) ==>
      c + AngleSkip < |lines| && r.value.fields.emission == AssignedValue(lines[c + AngleSkip])
    ensures r.Ok? && !Contains(lines[c], EmissionName) && Contains(lines[c], IncidenceName) ==>
      c + AngleSkip < |lines| && r.value.fields.incidence == AssignedValue(lines[c + AngleSkip])
    ensures r.Ok? && !Contains(lines[c], EmissionName) && !Contains(lines[c], IncidenceName) && Contains(lines[c], PhaseName) ==>
      c + AngleSkip < |lines| && r.value.fields.phase == AssignedValue(lines[c + AngleSkip])
    ensures (Contains(lines[c], EmissionName)
      && (c + AngleSkip < |lines| ==> !Contains(lines[c + AngleSkip], IncidenceName) && !Contains(lines[c + AngleSkip], PhaseName))) ==>
      (r.Ok? <==> c + AngleSkip < |lines| && AssignedValue(lines[c + AngleSkip]).Some?)
    ensures (!Contains(lines[c], EmissionName) && Contains(lines[c], IncidenceName)
      && (c + AngleSkip < |lines| ==> !Contains(lines[c + AngleSkip], PhaseName))) ==>
      (r.Ok? <==> c + AngleSkip < |lines| && AssignedValue(lines[c + AngleSkip]).Some?)
    ensures !Contains(lines[c], EmissionName) && !Contains(lines[c], IncidenceName) && Contains(lines[c], PhaseName) ==>
      (r.Ok? <==> c + AngleSkip < |lines| && AssignedValue(lines[c + AngleSkip]).Some?)
    ensures r.Err? ==> ValueLineFailed(lines, c, r.error)
  {
    var e :- AssignAfter(lines, c, EmissionName, AngleSkip, st.emission);
    var i :- AssignAfter(lines, e.pos, IncidenceName, AngleSkip, st.incidence);
    var p :- AssignAfter(lines, i.pos, PhaseName, AngleSkip, st.phase);
    Ok(At(p.pos, st.(emission := e.value, incidence := i.value, phase := p.value)))
  }

  /** `key` is the first of the five OBJECT and NAME keys on line `c` (none of
      `earlier` is there), and its value line, `skip` below, holds none of
      them. */
  predicate FirstObjectKeyAlone(lines: seq<string>, c: nat, skip: nat, key: string, earlier: seq<string>)
    requires c < |lines|
  {
    && Contains(lines[c], key)
    && (forall i :: 0 <= i < |earlier| ==> !Contains(lines[c], earlier[i]))
    && (c + skip < |lines| ==> !ObjectKey(lines[c + skip]))
  }

  /** The tests that may advance the line (sp_extract.py:52-66): record counts
      one line below their OBJECT line, angle offsets three lines below their
      NAME line. Each test sees the line the previous one left behind. */
  function ObjectTests(lines: seq<string>, c: nat, st: Fields): (r: Result<At>)
    requires c < |lines|
    ensures r.Ok? ==> c <= r.value.pos < |lines|
    ensures r.Ok? ==> r.value.fields.(radLines := st.radLines, refLines := st.refLines,
      emission := st.emission, incidence := st.incidence, phase := st.phase) == st
    ensures !ObjectKey(lines[c]) ==> r == Ok(At(c, st))
    ensures r.Ok? && Contains(lines[c], RadObject) ==>
      c + 1 < |lines| && r.value.fields.radLines == AssignedValue(lines[c + 1])
    ensures r.Ok? && !Contains(lines[c], RadObject) && Contains(lines[c], RefObject) ==>
      c + 1 < |lines| && r.value.fields.refLines == AssignedValue(lines[c + 1])
    ensures (r.Ok? && !Contains(lines[c], RadObject) && !Contains(lines[c], RefObject)
      && Contains(lines[c], EmissionName)) ==>
      c + AngleSkip < |lines| && r.value.fields.emission == AssignedValue(lines[c + AngleSkip])
    ensures (r.Ok? && !Contains(lines[c], RadObject) && !Contains(lines[c], RefObject)
      && !Contains(lines[c], EmissionName) && Contains(lines[c], IncidenceName)) ==>
      c + AngleSkip < |lines| && r.value.fields.incidence == AssignedValue(lines[c + AngleSkip])
    ensures (r.Ok? && !Contains(lines[c], RadObject) && !Contains(lines[c], RefObject)
      && !Contains(lines[c], EmissionName) && !Contains(lines[c], IncidenceName) && Contains(lines[c], PhaseName)) ==>
      c + AngleSkip < |lines| && r.value.fields.phase == AssignedValue(lines[c + AngleSkip])
    ensures r.Err? ==> ValueLineFailed(lines, c, r.error)
  {
    var a :- CountTests(lines, c, st);
    AngleTests(lines, a.pos, a.fields)
  }

  /** When the first OBJECT or NAME key on line `c` has a value line free of
      the five keys, the tests succeed exactly when that value parses. */
  lemma ObjectTestsSucceed(lines: seq<string>, c: nat, st: Fields)
    requires c < |lines|
    ensures FirstObjectKeyAlone(lines, c, 1, RadObject, []) ==>
      (ObjectTests(lines, c, st).Ok? <==> c + 1 < |lines| && AssignedValue(lines[c + 1]).Some?)
    ensures FirstObjectKeyAlone(lines, c, 1, RefObject, [RadObject]) ==>
      (ObjectTests(lines, c, st).Ok? <==> c + 1 < |lines| && AssignedValue(lines[c + 1]).Some?)
    ensures FirstObjectKeyAlone(lines, c, AngleSkip, EmissionName, [RadObject, RefObject]) ==>
      (ObjectTests(lines, c, st).Ok? <==> c + AngleSkip < |lines| && AssignedValue(lines[c + AngleSkip]).Some?)
    ensures FirstObjectKeyAlone(lines, c, AngleSkip, IncidenceName, [RadObject, RefObject, EmissionName]) ==>
      (ObjectTests(lines, c, st).Ok? <==> c + AngleSkip < |lines| && AssignedValue(lines[c + AngleSkip]).Some?)
    ensures FirstObjectKeyAlone(lines, c, AngleSkip, PhaseName, [RadObject, RefObject, EmissionName, IncidenceName]) ==>
      (ObjectTests(lines, c, st).Ok? <==> c + AngleSkip < |lines| && AssignedValue(lines[c + AngleSkip]).Some?)
  {
    var earlier := [RadObject, RefObject, EmissionName, IncidenceName];
    if FirstObjectKeyAlone(lines, c, 1, RadObject, []) || FirstObjectKeyAlone(lines, c, 1, RefObject, earlier[..1]) {
      CountKeyOutcome(lines, c, st);
    }
    if FirstObjectKeyAlone(lines, c, AngleSkip, EmissionName, earlier[..2])
      || FirstObjectKeyAlone(lines, c, AngleSkip, IncidenceName, earlier[..3])
      || FirstObjectKeyAlone(lines, c, AngleSkip, PhaseName, earlier)
    {
      assert earlier[0] == RadObject && earlier[1] == RefObject;
      AngleKeyOutcome(lines, c, st);
    }
  }

  /** A record count first on the line, its value line free of the five keys. */
  lemma CountKeyOutcome(lines: seq<string>, c: nat, st: Fields)
    requires c < |lines| && (Contains(lines[c], RadObject) || Contains(lines[c], RefObject))
    requires c + 1 < |lines| ==> !ObjectKey(lines[c + 1])
    ensures ObjectTests(lines, c, st).Ok? <==> c + 1 < |lines| && AssignedValue(lines[c + 1]).Some?
  {
    if c + 1 < |lines| && AssignedValue(lines[c + 1]).Some? {
      CountKeySucceeds(lines, c, st);
    } else {
      assert CountTests(lines, c, st).Err?;
    }
  }

  /** With no record count on the line only the angle tests act. */
  lemma AngleKeyOutcome(lines: seq<string>, c: nat, st: Fields)
    requires c < |lines| && !Contains(lines[c], RadObject) && !Contains(lines[c], RefObject)
    ensures ObjectTests(lines, c, st) == AngleTests(lines, c, st)
  {
    assert CountTests(lines, c, st) == Ok(At(c, st));
  }

  /** A record count whose value line parses and holds none of the five keys
      leaves the angle tests nothing to do. */
  lemma CountKeySucceeds(lines: seq<string>, c: nat, st: Fields)
    requires c + 1 < |lines| && !ObjectKey(lines[c + 1]) && AssignedValue(lines[c + 1]).Some?
    requires Contains(lines[c], RadObject) || Contains(lines[c], RefObject)
    ensures ObjectTests(lines, c, st).Ok?
  {
    var v := AssignedValue(lines[c + 1]);
    var f := if Contains(lines[c], RadObject) then st.(radLines := v) else st.(refLines := v);
    if Contains(lines[c], RadObject) {
      assert AssignAfter(lines, c, RadObject, 1, st.radLines) == Ok(Cursor(c + 1, v));
      assert AssignAfter(lines, c + 1, RefObject, 1, st.refLines) == Ok(Cursor(c + 1, st.refLines));
    } else {
      assert AssignAfter(lines, c, RadObject, 1, st.radLines) == Ok(Cursor(c, st.radLines));
      assert AssignAfter(lines, c, RefObject, 1, st.refLines) == Ok(Cursor(c + 1, v));
    }
    assert CountTests(lines, c, st) == Ok(At(c + 1, f));
    assert AngleTests(lines, c + 1, f) == Ok(At(c + 1, f));
  }

  /** The exception the last three tests raise on `line`: the count and
      record-length reads come before the ancillary one. */
  function TrailingError(line: string, at: nat): Error
  {
    if (Contains(line, PointCount) || Contains(line, RowBytesKey)) && AssignedValue(line).None?
    then ReadError(Assigned, line, at)
    else ReadError(BeforeUnit, line, at)
  }

  /** The last three assigning tests (sp_extract.py:67-72), on the current line. */
  function TrailingTests(line: string, at: nat, st: Fields): (r: Result<Fields>)
    ensures r.Ok? <==> (((Contains(line, PointCount) || Contains(line, RowBytesKey)) ==> AssignedValue(line).Some?)
      && (Contains(line, AncillaryPointer) ==> AncillaryValue(line).Some?))
    ensures r.Err? ==> r.error == TrailingError(line, at)
    ensures r.Ok? ==> r.value.(points := st.points, rowBytes := st.rowBytes, ancillary := st.ancillary) == st
    ensures r.Ok? ==> r.value.points == (if Contains(line, PointCount) then AssignedValue(line) else st.points)
    ensures r.Ok? ==> r.value.rowBytes == (if Contains(line, RowBytesKey) then AssignedValue(line) else st.rowBytes)
    ensures r.Ok? ==> r.value.ancillary == (if Contains(line, AncillaryPointer) then AncillaryValue(line) else st.ancillary)
  {
    var points :- Assign(line, PointCount, Assigned, st.points, at);
    var rowBytes :- Assign(line, RowBytesKey, Assigned, st.rowBytes, at);
    var ancillary :- Assign(line, AncillaryPointer, BeforeUnit, st.ancillary, at);
    Ok(st.(points := points, rowBytes := rowBytes, ancillary := ancillary))
  }

  /** How one iteration of the `for` loop ends. */
  datatype Step = Continue(next: nat, fields: Fields) | Stop(last: nat, fields: Fields)

  /** One iteration of the loop body (sp_extract.py:46-75) on line `c`. */
  function Iterate(lines: seq<string>, c: nat, st: Fields): (r: Result<Step>)
    requires c < |lines|
    ensures r.Ok? && r.value.Continue? ==> c < r.value.next <= |lines|
    ensures r.Ok? && r.value.Stop? ==> c <= r.value.last < |lines| && Contains(lines[r.value.last], QaObject)
  {
    var f :- PointerTests(lines[c], c, st);
    var at :- ObjectTests(lines, c, f);
    var here := lines[at.pos];
    var g :- TrailingTests(here, at.pos, at.fields);
    if Contains(here, QaObject) then Ok(Stop(at.pos, g)) else Ok(Continue(at.pos + 1, g))
  }

  /** The fields gathered, and whether the loop ended at the `break`. */
  datatype Scan = Scan(fields: Fields, stopped: bool)

  /** The loop from line `c` on, with `st` the locals assigned so far. */
  function ScanFrom(lines: seq<string>, c: nat, st: Fields): Result<Scan>
    requires c <= |lines|
    decreases |lines| - c
  {
    if c == |lines| then Ok(Scan(st, false))
    else
      var step :- Iterate(lines, c, st);
      match step
      case Stop(_, f) => Ok(Scan(f, true))
      case Continue(n, f) => ScanFrom(lines, n, f)
  }

  /** How many lines the loop has taken from the label: up to and including
      the line it breaks on, or all of them. */
  function LinesRead(lines: seq<string>, c: nat, st: Fields): (n: nat)
    requires c <= |lines|
    ensures c <= n <= |lines|
    decreases |lines| - c
  {
    if c == |lines| then c
    else
      match Iterate(lines, c, st)
      case Err(_) => c
      case Ok(Stop(last, _)) => last + 1
      case Ok(Continue(n, f)) => LinesRead(lines, n, f)
  }

  /** The `n`-th line taken from the label is the QA object line. */
  predicate EndsOnQa(lines: seq<string>, n: nat)
  {
    0 < n <= |lines| && Contains(lines[n - 1], QaObject)
  }

  /** A scan that ran out of lines read them all; one that stopped last read
      the QA object line. */
  lemma LinesReadEnd(lines: seq<string>, c: nat, st: Fields)
    requires c <= |lines| && ScanFrom(lines, c, st).Ok?
    ensures !ScanFrom(lines, c, st).value.stopped ==> LinesRead(lines, c, st) == |lines|
    ensures ScanFrom(lines, c, st).value.stopped ==> EndsOnQa(lines, LinesRead(lines, c, st))
  {
    if ScanFrom(lines, c, st).value.stopped {
      LinesReadStopped(lines, c, st);
    } else {
      LinesReadAll(lines, c, st);
    }
  }

  lemma {:induction false} LinesReadAll(lines: seq<string>, c: nat, st: Fields)
    requires c <= |lines| && ScanFrom(lines, c, st).Ok? && !ScanFrom(lines, c, st).value.stopped
    ensures LinesRead(lines, c, st) == |lines|
    decreases |lines| - c
  {
    if c < |lines| {
      var step := NextStep(lines, c, st);
      LinesReadAll(lines, step.next, step.fields);
    }
  }

  lemma {:induction false} LinesReadStopped(lines: seq<string>, c: nat, st: Fields)
    requires c <= |lines| && ScanFrom(lines, c, st).Ok? && ScanFrom(lines, c, st).value.stopped
    ensures EndsOnQa(lines, LinesRead(lines, c, st))
    decreases |lines| - c
  {
    assert c < |lines|;
    var step := NextStep(lines, c, st);
    if step.Continue? {
      LinesReadStopped(lines, step.next, step.fields);
    }
  }

  /** The iteration a successful scan makes at line `c`, and what ScanFrom
      and LinesRead are after it. */
  lemma NextStep(lines: seq<string>, c: nat, st: Fields) returns (step: Step)
    requires c < |lines| && ScanFrom(lines, c, st).Ok?
    ensures step.Stop? ==>
      && ScanFrom(lines, c, st) == Ok(Scan(step.fields, true))
      && LinesRead(lines, c, st) == step.last + 1
      && step.last < |lines| && Contains(lines[step.last], QaObject)
    ensures step.Continue? ==>
      && c < step.next <= |lines|
      && ScanFrom(lines, c, st) == ScanFrom(lines, step.next, step.fields)
      && LinesRead(lines, c, st) == LinesRead(lines, step.next, step.fields)
  {
    step := Iterate(lines, c, st).value;
  }

  /** The whole label scan, starting with nothing assigned. */
  function ScanLabel(lines: seq<string>): (r: Result<Fields>)
    ensures r.Err? ==> LabelFailure(lines, 0, r.error)
  {
    ScanFromFails(lines, 0, Unset);
    var s :- ScanFrom(lines, 0, Unset);
    Ok(s.fields)
  }

  /** The ways the label loop raises: StopIteration from `label.next()`;
      IndexError on a label line at or after line `c` that lacks the piece a
      `split` is indexed for; ValueError from `int()` on a label line at or
      after line `c` that has an `=`. */
  predicate LabelFailure(lines: seq<string>, c: nat, e: Error)
  {
    || e == LabelEnded
    || (e.LabelIndex? && c <= e.line < |lines| && Token(PointerToken, lines[e.line]).None?)
    || (e.LabelValue? && c <= e.line < |lines| && Token(Assigned, lines[e.line]).Some?)
  }

  /** One iteration raises only StopIteration, or IndexError or ValueError on one of its lines. */
  lemma IterateFails(lines: seq<string>, c: nat, st: Fields)
    requires c < |lines| && Iterate(lines, c, st).Err?
    ensures LabelFailure(lines, c, Iterate(lines, c, st).error)
  {
    var f := PointerTests(lines[c], c, st);
    if f.Ok? {
      var at := ObjectTests(lines, c, f.value);
      if at.Ok? {
        var p := at.value.pos;
        assert Iterate(lines, c, st).error == TrailingTests(lines[p], p, at.value.fields).error;
        ReadErrorLine(Assigned, lines[p], p);
        ReadErrorLine(BeforeUnit, lines[p], p);
      } else {
        assert ValueLineFailed(lines, c, at.error);
        if at.error != LabelEnded {
          ReadErrorLine(Assigned, lines[at.error.line], at.error.line);
        }
      }
    } else {
      ReadErrorLine(PointerToken, lines[c], c);
    }
  }

  lemma {:induction false} ScanFromFails(lines: seq<string>, c: nat, st: Fields)
    requires c <= |lines|
    ensures ScanFrom(lines, c, st).Err? ==> LabelFailure(lines, c, ScanFrom(lines, c, st).error)
    decreases |lines| - c
  {
    if c < |lines| {
      var step := Iterate(lines, c, st);
      if step.Err? {
        IterateFails(lines, c, st);
      } else if step.value.Continue? {
        ScanFromFails(lines, step.value.next, step.value.fields);
      }
    }
  }

  // ---------------------------------------------------------------------
  // Values read back from rendered label lines.

  lemma ShowIntFree(n: int, ch: char)
    requires !IsDigit(ch) && ch != '-'
    ensures ch !in ShowInt(n)
  {
    var s := ShowInt(n);
    forall k | 0 <= k < |s|
      ensures s[k] != ch
    {
      if n < 0 && k > 0 {
        assert s[k] == ShowNat(-n)[k - 1];
      }
    }
  }

  /** A separator-free prefix, a separator, and a separator-free suffix. */
  lemma FreeConcat(a: string, b: string, ch: char)
    requires ch !in a && ch !in b
    ensures ch !in a + b
  {
    forall k | 0 <= k < |a + b|
      ensures (a + b)[k] != ch
    {
      if k >= |a| { assert (a + b)[k] == b[k - |a|]; }
    }
  }

  /** The text after the only `=` of a line is its piece 1. */
  lemma PieceAfterEquals(lhs: string, rhs: string)
    requires '=' !in lhs && '=' !in rhs
    ensures Piece(lhs + ['='] + rhs, '=', 1) == Some(rhs)
  {
    SplitCons(lhs, '=', rhs);
    SplitNone(rhs, '=');
  }

  /** In ` <num> <unit>`, the token between the two spaces is piece 1. */
  lemma PieceBetweenSpaces(num: string, unit: string)
    requires ' ' !in num && ' ' !in unit
    ensures Piece([' '] + num + [' '] + unit, ' ', 1) == Some(num)
  {
    var tail := num + [' '] + unit;
    assert [' '] + num + [' '] + unit == [] + [' '] + tail;
    SplitCons([], ' ', tail);
    SplitCons(num, ' ', unit);
    SplitNone(unit, ' ');
  }

  /** A pointer line `^KEY = <n> <BYTES>` yields n: the token right after `= `. */
  lemma PointerValueOfLine(lhs: string, n: int, unit: string)
    requires '=' !in lhs && '=' !in unit && ' ' !in unit
    ensures PointerValue(lhs + "= " + ShowInt(n) + " " + unit) == Some(n)
  {
    var num := ShowInt(n);
    ShowIntFree(n, '=');
    ShowIntFree(n, ' ');
    var rhs := [' '] + num + [' '] + unit;
    FreeConcat([' '] + num + [' '], unit, '=');
    assert lhs + "= " + num + " " + unit == lhs + ['='] + rhs;
    PieceAfterEquals(lhs, rhs);
    PieceBetweenSpaces(num, unit);
    ParseShowInt([], n, []);
    assert [] + num + [] == num;
  }

  /** A line `KEY = <n>` yields n, whatever whitespace surrounds the number. */
  lemma AssignedValueOfLine(lhs: string, pre: string, n: int, post: string)
    requires '=' !in lhs && AllSpace(pre) && AllSpace(post)
    ensures AssignedValue(lhs + "=" + pre + ShowInt(n) + post) == Some(n)
  {
    var rhs := pre + ShowInt(n) + post;
    ShowIntFree(n, '=');
    FreeConcat(pre, ShowInt(n), '=');
    FreeConcat(pre + ShowInt(n), post, '=');
    assert lhs + "=" + pre + ShowInt(n) + post == lhs + ['='] + rhs;
    SplitCons(lhs, '=', rhs);
    SplitNone(rhs, '=');
    ParseShowInt(pre, n, post);
  }

  /** `^ANCILLARY_AND_SUPPLEMENT_DATA = <n> <BYTES>` yields n, the text before `<`. */
  lemma AncillaryValueOfLine(lhs: string, pre: string, n: int, post: string, unit: string)
    requires '=' !in lhs && AllSpace(pre) && AllSpace(post) && '=' !in unit
    ensures AncillaryValue(lhs + "=" + pre + ShowInt(n) + post + "<" + unit) == Some(n)
  {
    var num := pre + ShowInt(n) + post;
    ShowIntFree(n, '=');
    ShowIntFree(n, '<');
    FreeConcat(pre, ShowInt(n), '=');
    FreeConcat(pre + ShowInt(n), post, '=');
    FreeConcat(pre, ShowInt(n), '<');
    FreeConcat(pre + ShowInt(n), post, '<');
    var rhs := num + ['<'] + unit;
    FreeConcat(num + ['<'], unit, '=');
    assert lhs + "=" + pre + ShowInt(n) + post + "<" + unit == lhs + ['='] + rhs;
    SplitCons(lhs, '=', rhs);
    SplitNone(rhs, '=');
    SplitCons(num, '<', unit);
    ParseShowInt(pre, n, post);
  }

  // ---------------------------------------------------------------------
  // Every field the scan reports comes from a matching line of the label.

  /** A field's test: the key, how many lines below it the value sits, and how it is read. */
  datatype Test = Test(key: string, skip: nat, reader: Reader)

  /** Line `k`, among the first `bound` lines, carries the key of `t`, and the
      line `t.skip` below it, also among them, reads as `v`. */
  predicate Witness(lines: seq<string>, bound: nat, k: int, t: Test, v: int)
  {
    0 <= k && k + t.skip < bound <= |lines| && Contains(lines[k], t.key)
    && ReadValue(t.reader, lines[k + t.skip]) == Some(v)
  }

  ghost predicate Witnessed(lines: seq<string>, bound: nat, x: Option<int>, t: Test)
  {
    x.Some? ==> exists k :: Witness(lines, bound, k, t, x.value)
  }

  /** Each assigned field has a line among the first `bound` that justifies its value. */
  ghost predicate Justified(lines: seq<string>, bound: nat, f: Fields)
  {
    && Witnessed(lines, bound, f.wav, Test(WavPointer, 0, PointerToken))
    && Witnessed(lines, bound, f.rad, Test(RadPointer, 0, PointerToken))
    && Witnessed(lines, bound, f.ref, Test(RefPointer, 0, PointerToken))
    && Witnessed(lines, bound, f.radLines, Test(RadObject, 1, Assigned))
    && Witnessed(lines, bound, f.refLines, Test(RefObject, 1, Assigned))
    && Witnessed(lines, bound, f.emission, Test(EmissionName, AngleSkip, Assigned))
    && Witnessed(lines, bound, f.incidence, Test(IncidenceName, AngleSkip, Assigned))
    && Witnessed(lines, bound, f.phase, Test(PhaseName, AngleSkip, Assigned))
    && Witnessed(lines, bound, f.points, Test(PointCount, 0, Assigned))
    && Witnessed(lines, bound, f.rowBytes, Test(RowBytesKey, 0, Assigned))
    && Witnessed(lines, bound, f.ancillary, Test(AncillaryPointer, 0, BeforeUnit))
  }

  lemma WitnessedGrow(lines: seq<string>, b1: nat, b2: nat, x: Option<int>, t: Test)
    requires b1 <= b2 <= |lines| && Witnessed(lines, b1, x, t)
    ensures Witnessed(lines, b2, x, t)
  {
    if x.Some? {
      var k :| Witness(lines, b1, k, t, x.value);
      assert Witness(lines, b2, k, t, x.value);
    }
  }

  lemma JustifiedGrow(lines: seq<string>, b1: nat, b2: nat, f: Fields)
    requires b1 <= b2 <= |lines| && Justified(lines, b1, f)
    ensures Justified(lines, b2, f)
  {
    WitnessedGrow(lines, b1, b2, f.wav, Test(WavPointer, 0, PointerToken));
    WitnessedGrow(lines, b1, b2, f.rad, Test(RadPointer, 0, PointerToken));
    WitnessedGrow(lines, b1, b2, f.ref, Test(RefPointer, 0, PointerToken));
    WitnessedGrow(lines, b1, b2, f.radLines, Test(RadObject, 1, Assigned));
    WitnessedGrow(lines, b1, b2, f.refLines, Test(RefObject, 1, Assigned));
    WitnessedGrow(lines, b1, b2, f.emission, Test(EmissionName, AngleSkip, Assigned));
    WitnessedGrow(lines, b1, b2, f.incidence, Test(IncidenceName, AngleSkip, Assigned));
    WitnessedGrow(lines, b1, b2, f.phase, Test(PhaseName, AngleSkip, Assigned));
    WitnessedGrow(lines, b1, b2, f.points, Test(PointCount, 0, Assigned));
    WitnessedGrow(lines, b1, b2, f.rowBytes, Test(RowBytesKey, 0, Assigned));
    WitnessedGrow(lines, b1, b2, f.ancillary, Test(AncillaryPointer, 0, BeforeUnit));
  }

  /** A test on line `c` keeps a witnessed field witnessed. */
  lemma AssignWitnessed(lines: seq<string>, bound: nat, c: nat, t: Test, current: Option<int>)
    requires c < bound <= |lines| && t.skip == 0 && Witnessed(lines, bound, current, t)
    requires Assign(lines[c], t.key, t.reader, current, c).Ok?
    ensures Witnessed(lines, bound, Assign(lines[c], t.key, t.reader, current, c).value, t)
  {
    if Contains(lines[c], t.key) {
      AssignHitWitnessed(lines, bound, c, t, current);
    }
  }

  /** AssignWitnessed when line `c` holds the key: the line is its own witness. */
  lemma AssignHitWitnessed(lines: seq<string>, bound: nat, c: nat, t: Test, current: Option<int>)
    requires c < bound <= |lines| && t.skip == 0 && Contains(lines[c], t.key)
    requires Assign(lines[c], t.key, t.reader, current, c).Ok?
    ensures Witnessed(lines, bound, Assign(lines[c], t.key, t.reader, current, c).value, t)
  {
    var v := ReadValue(t.reader, lines[c]).value;
    assert Witness(lines, bound, c, t, v);
  }

  lemma AssignAfterWitnessed(lines: seq<string>, bound: nat, c: nat, t: Test, current: Option<int>)
    requires c < |lines| && t.reader == Assigned && Witnessed(lines, bound, current, t)
    requires AssignAfter(lines, c, t.key, t.skip, current).Ok?
    requires AssignAfter(lines, c, t.key, t.skip, current).value.pos < bound <= |lines|
    ensures Witnessed(lines, bound, AssignAfter(lines, c, t.key, t.skip, current).value.value, t)
  {
    if Contains(lines[c], t.key) {
      var v := AssignAfter(lines, c, t.key, t.skip, current).value.value.value;
      assert Witness(lines, bound, c, t, v);
    }
  }

  lemma PointerTestsJustified(lines: seq<string>, bound: nat, c: nat, st: Fields)
    requires c < bound <= |lines| && Justified(lines, bound, st)
    requires PointerTests(lines[c], c, st).Ok?
    ensures Justified(lines, bound, PointerTests(lines[c], c, st).value)
  {
    AssignWitnessed(lines, bound, c, Test(WavPointer, 0, PointerToken), st.wav);
    AssignWitnessed(lines, bound, c, Test(RadPointer, 0, PointerToken), st.rad);
    AssignWitnessed(lines, bound, c, Test(RefPointer, 0, PointerToken), st.ref);
  }

  lemma CountTestsJustified(lines: seq<string>, bound: nat, c: nat, st: Fields)
    requires c < |lines| && bound <= |lines| && Justified(lines, bound, st)
    requires CountTests(lines, c, st).Ok? && CountTests(lines, c, st).value.pos < bound
    ensures Justified(lines, bound, CountTests(lines, c, st).value.fields)
  {
    var a := AssignAfter(lines, c, RadObject, 1, st.radLines).value;
    AssignAfterWitnessed(lines, bound, c, Test(RadObject, 1, Assigned), st.radLines);
    AssignAfterWitnessed(lines, bound, a.pos, Test(RefObject, 1, Assigned), st.refLines);
  }

  lemma AngleTestsJustified(lines: seq<string>, bound: nat, c: nat, st: Fields)
    requires c < |lines| && bound <= |lines| && Justified(lines, bound, st)
    requires AngleTests(lines, c, st).Ok? && AngleTests(lines, c, st).value.pos < bound
    ensures Justified(lines, bound, AngleTests(lines, c, st).value.fields)
  {
    var e := AssignAfter(lines, c, EmissionName, AngleSkip, st.emission).value;
    AssignAfterWitnessed(lines, bound, c, Test(EmissionName, AngleSkip, Assigned), st.emission);
    var i := AssignAfter(lines, e.pos, IncidenceName, AngleSkip, st.incidence).value;
    AssignAfterWitnessed(lines, bound, e.pos, Test(IncidenceName, AngleSkip, Assigned), st.incidence);
    AssignAfterWitnessed(lines, bound, i.pos, Test(PhaseName, AngleSkip, Assigned), st.phase);
  }

  lemma ObjectTestsJustified(lines: seq<string>, bound: nat, c: nat, st: Fields)
    requires c < |lines| && bound <= |lines| && Justified(lines, bound, st)
    requires ObjectTests(lines, c, st).Ok? && ObjectTests(lines, c, st).value.pos < bound
    ensures Justified(lines, bound, ObjectTests(lines, c, st).value.fields)
  {
    var a := CountTests(lines, c, st).value;
    CountTestsJustified(lines, bound, c, st);
    AngleTestsJustified(lines, bound, a.pos, a.fields);
  }

  lemma TrailingTestsJustified(lines: seq<string>, bound: nat, c: nat, st: Fields)
    requires c < bound <= |lines| && Justified(lines, bound, st)
    requires TrailingTests(lines[c], c, st).Ok?
    ensures Justified(lines, bound, TrailingTests(lines[c], c, st).value)
  {
    AssignWitnessed(lines, bound, c, Test(PointCount, 0, Assigned), st.points);
    AssignWitnessed(lines, bound, c, Test(RowBytesKey, 0, Assigned), st.rowBytes);
    AssignWitnessed(lines, bound, c, Test(AncillaryPointer, 0, BeforeUnit), st.ancillary);
  }

  /** The lines one iteration has taken. */
  function StepEnd(s: Step): nat
  {
    match s
    case Continue(n, _) => n
    case Stop(last, _) => last + 1
  }

  lemma IterateJustified(lines: seq<string>, c: nat, st: Fields)
    requires c < |lines| && Justified(lines, c, st)
    requires Iterate(lines, c, st).Ok?
    ensures StepEnd(Iterate(lines, c, st).value) <= |lines|
    ensures Justified(lines, StepEnd(Iterate(lines, c, st).value), Iterate(lines, c, st).value.fields)
  {
    var f, at, g := IterateParts(lines, c, st);
    var bound := at.pos + 1;
    JustifiedGrow(lines, c, bound, st);
    PointerTestsJustified(lines, bound, c, st);
    ObjectTestsJustified(lines, bound, c, f);
    TrailingTestsJustified(lines, bound, at.pos, at.fields);
  }

  /** The results of the three groups of tests in a successful iteration. */
  lemma IterateParts(lines: seq<string>, c: nat, st: Fields) returns (f: Fields, at: At, g: Fields)
    requires c < |lines| && Iterate(lines, c, st).Ok?
    ensures PointerTests(lines[c], c, st) == Ok(f)
    ensures ObjectTests(lines, c, f) == Ok(at) && at.pos < |lines|
    ensures TrailingTests(lines[at.pos], at.pos, at.fields) == Ok(g)
    ensures Iterate(lines, c, st).value.fields == g && StepEnd(Iterate(lines, c, st).value) == at.pos + 1
  {
    f := PointerTests(lines[c], c, st).value;
    at := ObjectTests(lines, c, f).value;
    g := TrailingTests(lines[at.pos], at.pos, at.fields).value;
  }

  lemma {:induction false} ScanFromJustified(lines: seq<string>, c: nat, st: Fields)
    requires c <= |lines| && Justified(lines, c, st)
    requires ScanFrom(lines, c, st).Ok?
    ensures Justified(lines, LinesRead(lines, c, st), ScanFrom(lines, c, st).value.fields)
    decreases |lines| - c
  {
    if c < |lines| {
      IterateJustified(lines, c, st);
      match Iterate(lines, c, st).value
      case Stop(last, f) =>
        assert LinesRead(lines, c, st) == last + 1;
        assert ScanFrom(lines, c, st) == Ok(Scan(f, true));
      case Continue(n, f) =>
        assert LinesRead(lines, c, st) == LinesRead(lines, n, f);
        assert ScanFrom(lines, c, st) == ScanFrom(lines, n, f);
        ScanFromJustified(lines, n, f);
    }
  }

  /** Soundness of the scan: every offset and count it returns was read from
      the line the source reads it from, among the lines the loop took before
      its `break`. Pointer offsets come from a line with the pointer key;
      record counts from the line after the OBJECT line; angle offsets from
      the third line below the NAME line. */
  lemma ScanLabelSound(lines: seq<string>)
    requires ScanLabel(lines).Ok?
    ensures Justified(lines, LinesRead(lines, 0, Unset), ScanLabel(lines).value)
    ensures ScanFrom(lines, 0, Unset).value.stopped ==> EndsOnQa(lines, LinesRead(lines, 0, Unset))
  {
    ScanFromJustified(lines, 0, Unset);
    LinesReadEnd(lines, 0, Unset);
  }

  // ---------------------------------------------------------------------
  // Lines after the `break` are never looked at.

  /** A scan outcome that no later line can change. */
  predicate Settled(r: Result<Scan>)
  {
    (r.Ok? && r.value.stopped) || (r.Err? && r.error != LabelEnded)
  }

  lemma AssignAfterFrame(lines: seq<string>, extra: seq<string>, c: nat, key: string, skip: nat, current: Option<int>)
    requires c < |lines|
    requires AssignAfter(lines, c, key, skip, current) != Err(LabelEnded)
    ensures AssignAfter(lines + extra, c, key, skip, current) == AssignAfter(lines, c, key, skip, current)
  {
    assert (lines + extra)[c] == lines[c];
    if Contains(lines[c], key) {
      assert (lines + extra)[c + skip] == lines[c + skip];
    }
  }

  lemma CountTestsFrame(lines: seq<string>, extra: seq<string>, c: nat, st: Fields)
    requires c < |lines|
    requires CountTests(lines, c, st) != Err(LabelEnded)
    ensures CountTests(lines + extra, c, st) == CountTests(lines, c, st)
  {
    AssignAfterFrame(lines, extra, c, RadObject, 1, st.radLines);
    var a := AssignAfter(lines, c, RadObject, 1, st.radLines);
    if a.Ok? {
      AssignAfterFrame(lines, extra, a.value.pos, RefObject, 1, st.refLines);
    }
  }

  lemma AngleTestsFrame(lines: seq<string>, extra: seq<string>, c: nat, st: Fields)
    requires c < |lines|
    requires AngleTests(lines, c, st) != Err(LabelEnded)
    ensures AngleTests(lines + extra, c, st) == AngleTests(lines, c, st)
  {
    AssignAfterFrame(lines, extra, c, EmissionName, AngleSkip, st.emission);
    var e := AssignAfter(lines, c, EmissionName, AngleSkip, st.emission);
    if e.Ok? {
      AssignAfterFrame(lines, extra, e.value.pos, IncidenceName, AngleSkip, st.incidence);
      var i := AssignAfter(lines, e.value.pos, IncidenceName, AngleSkip, st.incidence);
      if i.Ok? {
        AssignAfterFrame(lines, extra, i.value.pos, PhaseName, AngleSkip, st.phase);
      }
    }
  }

  lemma ObjectTestsFrame(lines: seq<string>, extra: seq<string>, c: nat, st: Fields)
    requires c < |lines|
    requires ObjectTests(lines, c, st) != Err(LabelEnded)
    ensures ObjectTests(lines + extra, c, st) == ObjectTests(lines, c, st)
  {
    CountTestsFrame(lines, extra, c, st);
    var a := CountTests(lines, c, st);
    if a.Ok? {
      AngleTestsFrame(lines, extra, a.value.pos, a.value.fields);
    }
  }

  lemma IterateFrame(lines: seq<string>, extra: seq<string>, c: nat, st: Fields)
    requires c < |lines|
    requires Iterate(lines, c, st) != Err(LabelEnded)
    ensures Iterate(lines + extra, c, st) == Iterate(lines, c, st)
  {
    var all := lines + extra;
    assert all[c] == lines[c];
    match PointerTests(lines[c], c, st)
    case Err(e) =>
      PointerTestsFail(lines, c, st, e);
      PointerTestsFail(all, c, st, e);
    case Ok(f) =>
      ObjectTestsNotEnded(lines, c, st);
      ObjectTestsFrame(lines, extra, c, f);
      match ObjectTests(lines, c, f)
      case Err(e) =>
        ObjectTestsFail(lines, c, st, f, e);
        ObjectTestsFail(all, c, st, f, e);
      case Ok(at) =>
        var p, h := at.pos, at.fields;
        assert all[p] == lines[p];
        match TrailingTests(lines[p], p, h)
        case Err(e) =>
          TrailingTestsFail(lines, c, st, f, p, h, e);
          TrailingTestsFail(all, c, st, f, p, h, e);
        case Ok(g) =>
          if Contains(lines[p], QaObject) {
            IterateStops(lines, c, st, f, p, h, g);
            IterateStops(all, c, st, f, p, h, g);
          } else {
            IterateContinues(lines, c, st, f, p, h, g);
            IterateContinues(all, c, st, f, p, h, g);
          }
  }

  lemma ObjectTestsNotEnded(lines: seq<string>, c: nat, st: Fields)
    requires c < |lines| && Iterate(lines, c, st) != Err(LabelEnded)
    requires PointerTests(lines[c], c, st).Ok?
    ensures ObjectTests(lines, c, PointerTests(lines[c], c, st).value) != Err(LabelEnded)
  {
  }

  lemma {:induction false} ScanFromFrame(lines: seq<string>, extra: seq<string>, c: nat, st: Fields)
    requires c <= |lines|
    requires Settled(ScanFrom(lines, c, st))
    ensures ScanFrom(lines + extra, c, st) == ScanFrom(lines, c, st)
    decreases |lines| - c
  {
    var step := Iterate(lines, c, st);
    IterateFrame(lines, extra, c, st);
    if step.Ok? && step.value.Continue? {
      ScanFromFrame(lines, extra, step.value.next, step.value.fields);
    }
  }

  /** Once the scan has reached the `OBJECT = SP_SPECTRUM_QA` break (or failed
      on a line it could read), appending lines to the label changes nothing. */
  lemma ScanIgnoresLinesAfterBreak(lines: seq<string>, extra: seq<string>)
    requires Settled(ScanFrom(lines, 0, Unset))
    ensures ScanLabel(lines + extra) == ScanLabel(lines)
  {
    ScanFromFrame(lines, extra, 0, Unset);
  }

  // ---------------------------------------------------------------------
  // Lines without keys are skipped, and the QA line ends the scan.

  /** The line contains none of the keys the loop body tests. */
  predicate Quiet(line: string)
  {
    && !Contains(line, WavPointer) && !Contains(line, RadPointer) && !Contains(line, RefPointer)
    && !Contains(line, RadObject) && !Contains(line, RefObject)
    && !Contains(line, EmissionName) && !Contains(line, IncidenceName) && !Contains(line, PhaseName)
    && !Contains(line, PointCount) && !Contains(line, RowBytesKey) && !Contains(line, AncillaryPointer)
  }

  /** A line with no key leaves every local as it was and the loop goes on. */
  lemma QuietLineSkipped(lines: seq<string>, c: nat, st: Fields)
    requires c < |lines| && Quiet(lines[c]) && !Contains(lines[c], QaObject)
    ensures ScanFrom(lines, c, st) == ScanFrom(lines, c + 1, st)
  {
    assert Iterate(lines, c, st) == Ok(Continue(c + 1, st));
  }

  /** The `OBJECT = SP_SPECTRUM_QA` line ends the scan with the locals as they are. */
  lemma QaLineStops(lines: seq<string>, c: nat, st: Fields)
    requires c < |lines| && Quiet(lines[c]) && Contains(lines[c], QaObject)
    ensures ScanFrom(lines, c, st) == Ok(Scan(st, true))
  {
    assert Iterate(lines, c, st) == Ok(Stop(c, st));
  }

  // ---------------------------------------------------------------------
  // A line holding one key sets that key's field, overwriting any earlier value.

  /** The locals of the scan, by name. */
  datatype Field = Wav | Rad | Ref | RadLines | RefLines | Emission | Incidence | Phase
                 | Points | RowBytes | Ancillary

  /** The test that assigns each local. */
  function TestOf(x: Field): Test
  {
    match x
    case Wav => Test(WavPointer, 0, PointerToken)
    case Rad => Test(RadPointer, 0, PointerToken)
    case Ref => Test(RefPointer, 0, PointerToken)
    case RadLines => Test(RadObject, 1, Assigned)
    case RefLines => Test(RefObject, 1, Assigned)
    case Emission => Test(EmissionName, AngleSkip, Assigned)
    case Incidence => Test(IncidenceName, AngleSkip, Assigned)
    case Phase => Test(PhaseName, AngleSkip, Assigned)
    case Points => Test(PointCount, 0, Assigned)
    case RowBytes => Test(RowBytesKey, 0, Assigned)
    case Ancillary => Test(AncillaryPointer, 0, BeforeUnit)
  }

  function Put(f: Fields, x: Field, v: Option<int>): Fields
  {
    match x
    case Wav => f.(wav := v)
    case Rad => f.(rad := v)
    case Ref => f.(ref := v)
    case RadLines => f.(radLines := v)
    case RefLines => f.(refLines := v)
    case Emission => f.(emission := v)
    case Incidence => f.(incidence := v)
    case Phase => f.(phase := v)
    case Points => f.(points := v)
    case RowBytes => f.(rowBytes := v)
    case Ancillary => f.(ancillary := v)
  }

  /** The line holds the key of `x` and no other key, and is not the QA line. */
  predicate Alone(line: string, x: Field)
  {
    && Contains(line, TestOf(x).key) && !Contains(line, QaObject)
    && (x != Wav ==> !Contains(line, WavPointer))
    && (x != Rad ==> !Contains(line, RadPointer))
    && (x != Ref ==> !Contains(line, RefPointer))
    && (x != RadLines ==> !Contains(line, RadObject))
    && (x != RefLines ==> !Contains(line, RefObject))
    && (x != Emission ==> !Contains(line, EmissionName))
    && (x != Incidence ==> !Contains(line, IncidenceName))
    && (x != Phase ==> !Contains(line, PhaseName))
    && (x != Points ==> !Contains(line, PointCount))
    && (x != RowBytes ==> !Contains(line, RowBytesKey))
    && (x != Ancillary ==> !Contains(line, AncillaryPointer))
  }

  /** What one iteration on a line holding only the key of `x` does: it reads
      the value from the line `skip` below (the lines in between are never
      tested), replaces whatever `x` held, and the loop goes on after the value
      line. A missing value line is StopIteration, an unreadable one the
      IndexError or ValueError of its token. */
  lemma KeyLineStep(lines: seq<string>, c: nat, st: Fields, x: Field)
    requires c < |lines| && Alone(lines[c], x)
    requires (TestOf(x).skip > 0 && c + TestOf(x).skip < |lines|) ==>
      Quiet(lines[c + TestOf(x).skip]) && !Contains(lines[c + TestOf(x).skip], QaObject)
    ensures var t := TestOf(x);
      var v := c + t.skip;
      ScanFrom(lines, c, st) ==
        if v >= |lines| then Err(LabelEnded)
        else if ReadValue(t.reader, lines[v]).None? then Err(ReadError(t.reader, lines[v], v))
        else ScanFrom(lines, v + 1, Put(st, x, ReadValue(t.reader, lines[v])))
  {
    KeyIterate(lines, c, st, x);
  }

  /** KeyLineStep for one iteration of the loop body. */
  lemma KeyIterate(lines: seq<string>, c: nat, st: Fields, x: Field)
    requires c < |lines| && Alone(lines[c], x)
    requires (TestOf(x).skip > 0 && c + TestOf(x).skip < |lines|) ==>
      Quiet(lines[c + TestOf(x).skip]) && !Contains(lines[c + TestOf(x).skip], QaObject)
    ensures var t := TestOf(x);
      var v := c + t.skip;
      Iterate(lines, c, st) ==
        if v >= |lines| then Err(LabelEnded)
        else if ReadValue(t.reader, lines[v]).None? then Err(ReadError(t.reader, lines[v], v))
        else Ok(Continue(v + 1, Put(st, x, ReadValue(t.reader, lines[v]))))
  {
    if PointerField(x) {
      assert TestOf(x).skip == 0 && TestOf(x).reader == PointerToken;
      PointerKeyIterate(lines, c, st, x);
    } else if TrailingField(x) {
      assert TestOf(x).skip == 0;
      TrailingKeyIterate(lines, c, st, x);
    } else {
      assert TestOf(x).reader == Assigned;
      ObjectKeyIterate(lines, c, st, x);
    }
  }

  /** The locals set by the tests on sp_extract.py:46-51. */
  predicate PointerField(x: Field)
  {
    x.Wav? || x.Rad? || x.Ref?
  }

  /** The locals set by the tests on sp_extract.py:67-72. */
  predicate TrailingField(x: Field)
  {
    x.Points? || x.RowBytes? || x.Ancillary?
  }

  /** KeyIterate for the three pointer keys: the value is on the key's own line. */
  lemma PointerKeyIterate(lines: seq<string>, c: nat, st: Fields, x: Field)
    requires c < |lines| && Alone(lines[c], x) && PointerField(x)
    ensures Iterate(lines, c, st) ==
      if PointerValue(lines[c]).None? then Err(ReadError(PointerToken, lines[c], c))
      else Ok(Continue(c + 1, Put(st, x, PointerValue(lines[c]))))
  {
    var line := lines[c];
    PointerTestsAlone(line, c, st, x);
    if PointerValue(line).Some? {
      var f := Put(st, x, PointerValue(line));
      NoObjectKey(lines, c, f);
      NoTrailingKey(line, c, f);
      IterateContinues(lines, c, st, f, c, f, f);
    } else {
      PointerTestsFail(lines, c, st, ReadError(PointerToken, line, c));
    }
  }

  /** KeyIterate for the record counts and angle offsets: the value is `skip` lines below. */
  lemma ObjectKeyIterate(lines: seq<string>, c: nat, st: Fields, x: Field)
    requires c < |lines| && Alone(lines[c], x) && !PointerField(x) && !TrailingField(x)
    requires c + TestOf(x).skip < |lines| ==>
      Quiet(lines[c + TestOf(x).skip]) && !Contains(lines[c + TestOf(x).skip], QaObject)
    ensures var v := c + TestOf(x).skip;
      Iterate(lines, c, st) ==
        if v >= |lines| then Err(LabelEnded)
        else if AssignedValue(lines[v]).None? then Err(ReadError(Assigned, lines[v], v))
        else Ok(Continue(v + 1, Put(st, x, AssignedValue(lines[v]))))
  {
    var v := c + TestOf(x).skip;
    NoPointerKey(lines[c], c, st);
    ObjectTestsAlone(lines, c, st, x);
    if v >= |lines| {
      ObjectTestsFail(lines, c, st, st, LabelEnded);
    } else if AssignedValue(lines[v]).None? {
      ObjectTestsFail(lines, c, st, st, ReadError(Assigned, lines[v], v));
    } else {
      var f := Put(st, x, AssignedValue(lines[v]));
      NoTrailingKey(lines[v], v, f);
      IterateContinues(lines, c, st, st, v, f, f);
    }
  }

  /** KeyIterate for the observation count, record length and ancillary pointer. */
  lemma TrailingKeyIterate(lines: seq<string>, c: nat, st: Fields, x: Field)
    requires c < |lines| && Alone(lines[c], x) && TrailingField(x)
    ensures var value := ReadValue(TestOf(x).reader, lines[c]);
      Iterate(lines, c, st) ==
        if value.None? then Err(ReadError(TestOf(x).reader, lines[c], c))
        else Ok(Continue(c + 1, Put(st, x, value)))
  {
    var line := lines[c];
    var value := ReadValue(TestOf(x).reader, line);
    NoPointerKey(line, c, st);
    NoObjectKey(lines, c, st);
    TrailingTestsAlone(line, c, st, x);
    if value.Some? {
      IterateContinues(lines, c, st, st, c, st, Put(st, x, value));
    } else {
      TrailingTestsFail(lines, c, st, st, c, st, ReadError(TestOf(x).reader, line, c));
    }
  }

  // Iterate assembled from the results of its three groups of tests.

  lemma IterateContinues(lines: seq<string>, c: nat, st: Fields, f: Fields, p: nat, h: Fields, g: Fields)
    requires c < |lines| && p < |lines|
    requires PointerTests(lines[c], c, st) == Ok(f)
    requires ObjectTests(lines, c, f) == Ok(At(p, h))
    requires TrailingTests(lines[p], p, h) == Ok(g)
    requires !Contains(lines[p], QaObject)
    ensures Iterate(lines, c, st) == Ok(Continue(p + 1, g))
  {
  }

  lemma PointerTestsFail(lines: seq<string>, c: nat, st: Fields, e: Error)
    requires c < |lines| && PointerTests(lines[c], c, st) == Err(e)
    ensures Iterate(lines, c, st) == Err(e)
  {
  }

  lemma ObjectTestsFail(lines: seq<string>, c: nat, st: Fields, f: Fields, e: Error)
    requires c < |lines| && PointerTests(lines[c], c, st) == Ok(f)
    requires ObjectTests(lines, c, f) == Err(e)
    ensures Iterate(lines, c, st) == Err(e)
  {
  }

  lemma TrailingTestsFail(lines: seq<string>, c: nat, st: Fields, f: Fields, p: nat, h: Fields, e: Error)
    requires c < |lines| && p < |lines|
    requires PointerTests(lines[c], c, st) == Ok(f)
    requires ObjectTests(lines, c, f) == Ok(At(p, h))
    requires TrailingTests(lines[p], p, h) == Err(e)
    ensures Iterate(lines, c, st) == Err(e)
  {
  }

  lemma IterateStops(lines: seq<string>, c: nat, st: Fields, f: Fields, p: nat, h: Fields, g: Fields)
    requires c < |lines| && p < |lines|
    requires PointerTests(lines[c], c, st) == Ok(f)
    requires ObjectTests(lines, c, f) == Ok(At(p, h))
    requires TrailingTests(lines[p], p, h) == Ok(g)
    requires Contains(lines[p], QaObject)
    ensures Iterate(lines, c, st) == Ok(Stop(p, g))
  {
  }

  // Each group of tests on a line holding a single key.

  lemma NoPointerKey(line: string, c: nat, st: Fields)
    requires !Contains(line, WavPointer) && !Contains(line, RadPointer) && !Contains(line, RefPointer)
    ensures PointerTests(line, c, st) == Ok(st)
  {
  }

  lemma NoObjectKey(lines: seq<string>, c: nat, st: Fields)
    requires c < |lines| && !ObjectKey(lines[c])
    ensures ObjectTests(lines, c, st) == Ok(At(c, st))
  {
  }

  lemma NoTrailingKey(line: string, c: nat, st: Fields)
    requires !Contains(line, PointCount) && !Contains(line, RowBytesKey) && !Contains(line, AncillaryPointer)
    ensures TrailingTests(line, c, st) == Ok(st)
  {
  }

  lemma PointerTestsAlone(line: string, c: nat, st: Fields, x: Field)
    requires Alone(line, x) && PointerField(x)
    ensures PointerTests(line, c, st) ==
      if PointerValue(line).None? then Err(ReadError(PointerToken, line, c)) else Ok(Put(st, x, PointerValue(line)))
  {
  }

  /** What TrailingTests gives on a line holding only the key of `x`. */
  ghost predicate TrailingTestsRead(line: string, c: nat, st: Fields, x: Field)
  {
    var value := ReadValue(TestOf(x).reader, line);
    TrailingTests(line, c, st) == if value.None? then Err(ReadError(TestOf(x).reader, line, c)) else Ok(Put(st, x, value))
  }

  lemma TrailingTestsAlone(line: string, c: nat, st: Fields, x: Field)
    requires Alone(line, x) && TrailingField(x)
    ensures TrailingTestsRead(line, c, st, x)
  {
    match x
    case Points => PointsTrailingTests(line, c, st, x);
    case RowBytes => RowBytesTrailingTests(line, c, st, x);
    case Ancillary => AncillaryTrailingTests(line, c, st, x);
  }

  lemma PointsTrailingTests(line: string, c: nat, st: Fields, x: Field)
    requires x == Points && Alone(line, x)
    ensures TrailingTestsRead(line, c, st, x)
  {
  }

  lemma RowBytesTrailingTests(line: string, c: nat, st: Fields, x: Field)
    requires x == RowBytes && Alone(line, x)
    ensures TrailingTestsRead(line, c, st, x)
  {
  }

  lemma AncillaryTrailingTests(line: string, c: nat, st: Fields, x: Field)
    requires x == Ancillary && Alone(line, x)
    ensures TrailingTestsRead(line, c, st, x)
  {
  }

  /** What ObjectTests gives on a line holding only the key of `x`. */
  ghost predicate ObjectTestsRead(lines: seq<string>, c: nat, st: Fields, x: Field)
    requires c < |lines|
  {
    var v := c + TestOf(x).skip;
    ObjectTests(lines, c, st) ==
      if v >= |lines| then Err(LabelEnded)
      else if AssignedValue(lines[v]).None? then Err(ReadError(Assigned, lines[v], v))
      else Ok(At(v, Put(st, x, AssignedValue(lines[v]))))
  }

  lemma ObjectTestsAlone(lines: seq<string>, c: nat, st: Fields, x: Field)
    requires c < |lines| && Alone(lines[c], x) && !PointerField(x) && !TrailingField(x)
    requires c + TestOf(x).skip < |lines| ==> Quiet(lines[c + TestOf(x).skip])
    ensures ObjectTestsRead(lines, c, st, x)
  {
    match x
    case RadLines => RadLinesObjectTests(lines, c, st, x);
    case RefLines => RefLinesObjectTests(lines, c, st, x);
    case Emission => EmissionObjectTests(lines, c, st, x);
    case Incidence => IncidenceObjectTests(lines, c, st, x);
    case Phase => PhaseObjectTests(lines, c, st, x);
  }

  lemma RadLinesObjectTests(lines: seq<string>, c: nat, st: Fields, x: Field)
    requires c < |lines| && x == RadLines && Alone(lines[c], x)
    requires c + TestOf(x).skip < |lines| ==> Quiet(lines[c + TestOf(x).skip])
    ensures ObjectTestsRead(lines, c, st, x)
  {
    var v := c + TestOf(RadLines).skip;
    if v < |lines| && AssignedValue(lines[v]).Some? {
      var f := st.(radLines := AssignedValue(lines[v]));
      assert AssignAfter(lines, c, RadObject, 1, st.radLines) == Ok(Cursor(v, f.radLines));
      assert AssignAfter(lines, v, RefObject, 1, st.refLines) == Ok(Cursor(v, st.refLines));
      assert AssignAfter(lines, v, EmissionName, AngleSkip, st.emission) == Ok(Cursor(v, st.emission));
      assert AssignAfter(lines, v, IncidenceName, AngleSkip, st.incidence) == Ok(Cursor(v, st.incidence));
      assert AssignAfter(lines, v, PhaseName, AngleSkip, st.phase) == Ok(Cursor(v, st.phase));
    }
  }

  lemma RefLinesObjectTests(lines: seq<string>, c: nat, st: Fields, x: Field)
    requires c < |lines| && x == RefLines && Alone(lines[c], x)
    requires c + TestOf(x).skip < |lines| ==> Quiet(lines[c + TestOf(x).skip])
    ensures ObjectTestsRead(lines, c, st, x)
  {
    var v := c + TestOf(RefLines).skip;
    if v < |lines| && AssignedValue(lines[v]).Some? {
      var f := st.(refLines := AssignedValue(lines[v]));
      assert AssignAfter(lines, c, RadObject, 1, st.radLines) == Ok(Cursor(c, st.radLines));
      assert AssignAfter(lines, c, RefObject, 1, st.refLines) == Ok(Cursor(v, f.refLines));
      assert AssignAfter(lines, v, EmissionName, AngleSkip, st.emission) == Ok(Cursor(v, st.emission));
      assert AssignAfter(lines, v, IncidenceName, AngleSkip, st.incidence) == Ok(Cursor(v, st.incidence));
      assert AssignAfter(lines, v, PhaseName, AngleSkip, st.phase) == Ok(Cursor(v, st.phase));
    }
  }

  lemma EmissionObjectTests(lines: seq<string>, c: nat, st: Fields, x: Field)
    requires c < |lines| && x == Emission && Alone(lines[c], x)
    requires c + TestOf(x).skip < |lines| ==> Quiet(lines[c + TestOf(x).skip])
    ensures ObjectTestsRead(lines, c, st, x)
  {
    var v := c + TestOf(Emission).skip;
    if v < |lines| && AssignedValue(lines[v]).Some? {
      var f := st.(emission := AssignedValue(lines[v]));
      assert AssignAfter(lines, c, RadObject, 1, st.radLines) == Ok(Cursor(c, st.radLines));
      assert AssignAfter(lines, c, RefObject, 1, st.refLines) == Ok(Cursor(c, st.refLines));
      assert AssignAfter(lines, c, EmissionName, AngleSkip, st.emission) == Ok(Cursor(v, f.emission));
      assert AssignAfter(lines, v, IncidenceName, AngleSkip, st.incidence) == Ok(Cursor(v, st.incidence));
      assert AssignAfter(lines, v, PhaseName, AngleSkip, st.phase) == Ok(Cursor(v, st.phase));
    }
  }

  lemma IncidenceObjectTests(lines: seq<string>, c: nat, st: Fields, x: Field)
    requires c < |lines| && x == Incidence && Alone(lines[c], x)
    requires c + TestOf(x).skip < |lines| ==> Quiet(lines[c + TestOf(x).skip])
    ensures ObjectTestsRead(lines, c, st, x)
  {
    var v := c + TestOf(Incidence).skip;
    if v < |lines| && AssignedValue(lines[v]).Some? {
      var f := st.(incidence := AssignedValue(lines[v]));
      assert AssignAfter(lines, c, RadObject, 1, st.radLines) == Ok(Cursor(c, st.radLines));
      assert AssignAfter(lines, c, RefObject, 1, st.refLines) == Ok(Cursor(c, st.refLines));
      assert AssignAfter(lines, c, EmissionName, AngleSkip, st.emission) == Ok(Cursor(c, st.emission));
      assert AssignAfter(lines, c, IncidenceName, AngleSkip, st.incidence) == Ok(Cursor(v, f.incidence));
      assert AssignAfter(lines, v, PhaseName, AngleSkip, st.phase) == Ok(Cursor(v, st.phase));
    }
  }

  lemma PhaseObjectTests(lines: seq<string>, c: nat, st: Fields, x: Field)
    requires c < |lines| && x == Phase && Alone(lines[c], x)
    requires c + TestOf(x).skip < |lines| ==> Quiet(lines[c + TestOf(x).skip])
    ensures ObjectTestsRead(lines, c, st, x)
  {
    var v := c + TestOf(Phase).skip;
    if v < |lines| && AssignedValue(lines[v]).Some? {
      var f := st.(phase := AssignedValue(lines[v]));
      assert AssignAfter(lines, c, RadObject, 1, st.radLines) == Ok(Cursor(c, st.radLines));
      assert AssignAfter(lines, c, RefObject, 1, st.refLines) == Ok(Cursor(c, st.refLines));
      assert AssignAfter(lines, c, EmissionName, AngleSkip, st.emission) == Ok(Cursor(c, st.emission));
      assert AssignAfter(lines, c, IncidenceName, AngleSkip, st.incidence) == Ok(Cursor(c, st.incidence));
      assert AssignAfter(lines, c, PhaseName, AngleSkip, st.phase) == Ok(Cursor(v, f.phase));
    }
  }
}

=== FILE: photometric.dfy ===
/** The photometric correction (sp_extract.py:186-229) and its driver
    (sp_extract.py:256-269): every reflectance column that the coefficient
    table covers is scaled so that each observation looks as if it had been
    taken at incidence 30, emission 0 and phase 30 degrees. The arithmetic is
    numpy's (see Floats); cos, tan and `** 1.5` are left uninterpreted. */
module Photometric {
  import opened Base
  import opened Floats

  /** The Lunar-Lambert polynomial coefficients (sp_extract.py:256-258). */
  const C1: real := -0.019
  const C2: real := 0.000242
  const C3: real := -0.00000146

  /** The reference geometry the spectra are normalised to. */
  const RefIncidence: real := 30.0
  const RefEmission: real := 0.0
  const RefPhase: real := 30.0

  function Square(x: Float): Float
  {
    Mul(x, x)
  }

  /** `_phg(g, phase)` (sp_extract.py:196-199): the Henyey-Greenstein
      phase term, `(1 - g^2) / (1 + g^2 - 2 g cos(phase)^1.5)`. */
  function Phg(m: Math, g: Float, phase: Float): Float
  {
    Div(Sub(Finite(1.0), Square(g)),
        Sub(Add(Finite(1.0), Square(g)), Mul(Mul(Finite(2.0), g), Pow15(m, Cos(m, phase)))))
  }

  /** With g = 1 or g = -1 all the light goes into one lobe and the other
      lobe's term is 0 wherever it is defined. */
  lemma PhgSingleLobe(m: Math, g: Float, phase: Float)
    requires Square(g) == Finite(1.0)
    ensures Phg(m, g, phase).Finite? ==> Phg(m, g, phase) == Finite(0.0)
  {
  }

  /** One row of the coefficient table, as the correction names its first
      four fields (sp_extract.py:203-206). */
  datatype BandCoefficients = BandCoefficients(bNaught: Float, h: Float, c: Float, g: Float)

  /** `coefficient_table[wv][0..3]`: a row with fewer than four fields is an
      IndexError. */
  function RowCoefficients(row: seq<Float>): (r: Result<BandCoefficients>)
    ensures r.Ok? <==> |row| >= 4
    ensures r.Ok? ==> r.value == BandCoefficients(row[0], row[1], row[2], row[3])
  {
    if |row| < 4 then Err(IndexError) else Ok(BandCoefficients(row[0], row[1], row[2], row[3]))
  }

  /** The two-lobed phase function with opposition surge,
      `(1 + b) * p` (sp_extract.py:214-216), at an observed phase angle. */
  function FObserved(m: Math, k: BandCoefficients, phase: Float): Float
  {
    var p := Add(Mul(Div(Sub(Finite(1.0), k.c), Finite(2.0)), Phg(m, k.g, phase)),
                 Mul(Div(Add(Finite(1.0), k.c), Finite(2.0)), Phg(m, Mul(Finite(-1.0), k.g), phase)));
    var b := Div(k.bNaught, Add(Finite(1.0), Div(Tan(m, Div(phase, Finite(2.0))), k.h)));
    Mul(Add(Finite(1.0), b), p)
  }

  /** The same phase function written out for phase 30 (sp_extract.py:209-211),
      with the literal `30` and `30 / 2.0` of the source. */
  function FFixed(m: Math, k: BandCoefficients): Float
  {
    var p := Add(Mul(Div(Sub(Finite(1.0), k.c), Finite(2.0)), Phg(m, k.g, Finite(30.0))),
                 Mul(Div(Add(Finite(1.0), k.c), Finite(2.0)), Phg(m, Mul(Finite(-1.0), k.g), Finite(30.0))));
    var b := Div(k.bNaught, Add(Finite(1.0), Div(Tan(m, Finite(30.0 / 2.0)), k.h)));
    Mul(Add(Finite(1.0), b), p)
  }

  /** A non-finite coefficient makes both phase functions non-finite, and a
      non-finite phase angle makes the observed one non-finite. */
  lemma PhaseFunctionsNonFinite(m: Math, k: BandCoefficients, phase: Float)
    requires !k.bNaught.Finite? || !k.h.Finite? || !k.c.Finite? || !k.g.Finite?
    ensures FFixed(m, k) == NonFinite && FObserved(m, k, phase) == NonFinite
  {
  }

  lemma FObservedNonFinitePhase(m: Math, k: BandCoefficients)
    ensures FObserved(m, k, NonFinite) == NonFinite
  {
  }

  /** The Lunar-Lambert weight `l` at a phase angle (sp_extract.py:221). */
  function LunarL(phase: Float): Float
  {
    Add(Add(Add(Finite(1.0), Mul(Finite(C1), phase)), Mul(Finite(C2), Square(phase))),
        Mul(Finite(C3), Mul(Square(phase), phase)))
  }

  /** `l` is the cubic 1 + c1 p + c2 p^2 + c3 p^3 in Horner form, and is 1 at
      zero phase. */
  lemma LunarLPolynomial(phase: Float)
    ensures phase.Finite? ==> LunarL(phase) == Finite(1.0 + phase.v * (C1 + phase.v * (C2 + phase.v * C3)))
    ensures !phase.Finite? ==> LunarL(phase) == NonFinite
    ensures LunarL(Finite(0.0)) == Finite(1.0)
  {
    if phase.Finite? {
      LunarLHorner(phase);
    }
    LunarLAtZero();
  }

  lemma LunarLHorner(phase: Float)
    requires phase.Finite?
    ensures LunarL(phase) == Finite(1.0 + phase.v * (C1 + phase.v * (C2 + phase.v * C3)))
  {
    var p := phase.v;
    assert Square(phase) == Finite(p * p);
    assert Mul(Square(phase), phase) == Finite(p * p * p);
    var expanded := 1.0 + C1 * p + C2 * (p * p) + C3 * (p * p * p);
    assert LunarL(phase) == Finite(expanded);
    Horner(p, C1, C2, C3);
  }

  lemma LunarLAtZero()
    ensures LunarL(Finite(0.0)) == Finite(1.0)
  {
    LunarLHorner(Finite(0.0));
    assert 0.0 * (C1 + 0.0 * (C2 + 0.0 * C3)) == 0.0;
  }

  lemma Horner(p: real, a: real, b: real, c: real)
    ensures 1.0 + a * p + b * (p * p) + c * (p * p * p) == 1.0 + p * (a + p * (b + p * c))
  {
    calc {
      p * (a + p * (b + p * c));
      p * a + p * (p * (b + p * c));
      { assert p * (p * (b + p * c)) == (p * p) * (b + p * c); }
      p * a + (p * p) * (b + p * c);
      { assert (p * p) * (b + p * c) == (p * p) * b + (p * p) * (p * c); }
      p * a + (p * p) * b + (p * p) * (p * c);
      { assert (p * p) * (p * c) == c * (p * p * p); }
      a * p + b * (p * p) + c * (p * p * p);
    }
  }

  /** `xl_observed` (sp_extract.py:222-224):
      `2 l cos i / (cos i + cos e) + (1 - l) cos i`. */
  function XlObserved(m: Math, a: Angles<Float>): Float
  {
    var l := LunarL(a.phase);
    var cosi := Cos(m, a.incidence);
    var cose := Cos(m, a.emission);
    Add(Mul(Mul(Finite(2.0), l), Div(cosi, Add(cosi, cose))), Mul(Sub(Finite(1.0), l), cosi))
  }

  /** The Lunar-Lambert mix: with weight l = 1 (zero phase, LunarLPolynomial)
      it is the Lommel-Seeliger term 2 cos i / (cos i + cos e). */
  lemma XlLommelSeeliger(m: Math, a: Angles<Float>)
    requires a.incidence.Finite? && a.emission.Finite? && LunarL(a.phase) == Finite(1.0)
    requires m.cosDeg(a.incidence.v) + m.cosDeg(a.emission.v) != 0.0
    ensures var cosi, cose := m.cosDeg(a.incidence.v), m.cosDeg(a.emission.v);
      XlObserved(m, a) == Finite(2.0 * cosi / (cosi + cose))
  {
    var cosi, cose := m.cosDeg(a.incidence.v), m.cosDeg(a.emission.v);
    assert XlObserved(m, a) == Add(Mul(Mul(Finite(2.0), Finite(1.0)), Finite(cosi / (cosi + cose))),
                                   Mul(Sub(Finite(1.0), Finite(1.0)), Finite(cosi)));
    LommelSeeliger(cosi, cose);
  }

  /** With weight l = 0 it is the Lambert term cos i. */
  lemma XlLambert(m: Math, a: Angles<Float>)
    requires a.incidence.Finite? && a.emission.Finite? && LunarL(a.phase) == Finite(0.0)
    requires m.cosDeg(a.incidence.v) + m.cosDeg(a.emission.v) != 0.0
    ensures XlObserved(m, a) == Finite(m.cosDeg(a.incidence.v))
  {
    var cosi, cose := m.cosDeg(a.incidence.v), m.cosDeg(a.emission.v);
    assert XlObserved(m, a) == Add(Mul(Mul(Finite(2.0), Finite(0.0)), Finite(cosi / (cosi + cose))),
                                   Mul(Sub(Finite(1.0), Finite(0.0)), Finite(cosi)));
  }

  /** With cos i + cos e = 0 it divides by zero. */
  lemma XlDivideByZero(m: Math, a: Angles<Float>)
    requires a.incidence.Finite? && a.emission.Finite?
    requires m.cosDeg(a.incidence.v) + m.cosDeg(a.emission.v) == 0.0
    ensures XlObserved(m, a) == NonFinite
  {
    var cosi := Cos(m, a.incidence);
    assert Div(cosi, Add(cosi, Cos(m, a.emission))) == NonFinite;
  }

  lemma LommelSeeliger(cosi: real, cose: real)
    requires cosi + cose != 0.0
    ensures 2.0 * 1.0 * (cosi / (cosi + cose)) + (1.0 - 1.0) * cosi == 2.0 * cosi / (cosi + cose)
  {
  }

  /** `xl_constant` (sp_extract.py:259-262): the same expression at the
      reference geometry, computed with Python's `math`, whose division by
      zero raises. */
  function XlConstant(m: Math): (r: Result<real>)
    ensures r.Err? <==> m.cosDeg(RefIncidence) + m.cosDeg(RefEmission) == 0.0
    ensures r.Err? ==> r.error == ZeroDivision
  {
    var l := 1.0 + C1 * 30.0 + C2 * 900.0 + C3 * 27000.0;
    var cosi := m.cosDeg(30.0);
    var cose := m.cosDeg(0.0);
    if cosi + cose == 0.0 then Err(ZeroDivision)
    else Ok(2.0 * l * (cosi / (cosi + cose)) + (1.0 - l) * cosi)
  }

  const Reference: Angles<Float> := Angles(Finite(RefIncidence), Finite(RefEmission), Finite(RefPhase))

  /** The observed phase function at phase 30 is the fixed one. */
  lemma FObservedAtReference(m: Math, k: BandCoefficients)
    ensures FObserved(m, k, Finite(RefPhase)) == FFixed(m, k)
  {
    assert Div(Finite(RefPhase), Finite(2.0)) == Finite(30.0 / 2.0);
  }

  /** The observed Lunar-Lambert term at the reference geometry is
      `xl_constant`, and is non-finite exactly where `xl_constant` raises. */
  lemma XlObservedAtReference(m: Math)
    ensures XlConstant(m).Ok? ==> XlObserved(m, Reference) == Finite(XlConstant(m).value)
    ensures XlConstant(m).Err? ==> XlObserved(m, Reference) == NonFinite
  {
    assert LunarL(Finite(RefPhase)) == Finite(1.0 + C1 * 30.0 + C2 * 900.0 + C3 * 27000.0);
  }

  /** One corrected value, `ref * xl_ratio * f_ratio` (sp_extract.py:218, 225, 228). */
  function CorrectValue(m: Math, k: BandCoefficients, xlFixed: Float, a: Angles<Float>, x: Float): Float
  {
    var fRatio := Div(FFixed(m, k), FObserved(m, k, a.phase));
    var xlRatio := Div(xlFixed, XlObserved(m, a));
    Mul(Mul(x, xlRatio), fRatio)
  }

  /** The correction multiplies every reflectance by the same factor, the
      value it gives a reflectance of 1: it depends on the geometry and the
      coefficients only. */
  lemma CorrectValueScales(m: Math, k: BandCoefficients, xlFixed: Float, a: Angles<Float>, x: Float)
    ensures CorrectValue(m, k, xlFixed, a, x) == Mul(x, CorrectValue(m, k, xlFixed, a, One))
  {
    var fRatio := Div(FFixed(m, k), FObserved(m, k, a.phase));
    var xlRatio := Div(xlFixed, XlObserved(m, a));
    if x.Finite? && xlRatio.Finite? && fRatio.Finite? {
      assert x.v * xlRatio.v * fRatio.v == x.v * (1.0 * xlRatio.v * fRatio.v);
    }
  }

  /** At the reference geometry the correction factor is 1 and leaves the
      value as it is, provided neither ratio divides by zero. */
  lemma CorrectValueAtReference(m: Math, k: BandCoefficients, x: Float)
    requires XlConstant(m).Ok? && XlConstant(m).value != 0.0
    requires FFixed(m, k).Finite? && FFixed(m, k).v != 0.0
    ensures CorrectValue(m, k, Finite(XlConstant(m).value), Reference, x) == x
  {
    var xl := Finite(XlConstant(m).value);
    var f := FFixed(m, k);
    FObservedAtReference(m, k);
    XlObservedAtReference(m);
    assert CorrectValue(m, k, xl, Reference, x) == Mul(Mul(x, Div(xl, xl)), Div(f, f));
    UnitRatios(x, xl, f);
  }

  lemma UnitRatios(x: Float, a: Float, b: Float)
    requires a.Finite? && a.v != 0.0 && b.Finite? && b.v != 0.0
    ensures Mul(Mul(x, Div(a, a)), Div(b, b)) == x
  {
    DivSelf(a);
    DivSelf(b);
    MulOne(x);
  }

  /** `photometric_correction(wv, ref_array[:, wv], ...)` assigned back into
      the column (sp_extract.py:186-229, 269). Errors in the source's order:
      `angles[:, 0]` of an empty angle array, a short coefficient row, then
      a column and angle array that numpy cannot broadcast together or whose
      product does not fit back into the column. With a single observation
      its angles apply to every row. */
  function CorrectColumn(m: Math, row: seq<Float>, angles: seq<Angles<Float>>, xlFixed: Float,
                         column: seq<Float>): (r: Result<seq<Float>>)
    ensures r.Ok? <==> |angles| > 0 && |row| >= 4 && (|column| == |angles| || |angles| == 1)
    ensures r.Err? && |angles| == 0 ==> r.error == IndexError
    ensures r.Ok? ==> |r.value| == |column|
    ensures r.Ok? ==> forall i :: 0 <= i < |column| ==>
      r.value[i] == CorrectValue(m, RowCoefficients(row).value, xlFixed,
                                 angles[if |angles| == 1 then 0 else i], column[i])
  {
    if |angles| == 0 then Err(IndexError)
    else
      var k :- RowCoefficients(row);
      if |column| == |angles| || |angles| == 1 then
        Ok(seq(|column|, i requires 0 <= i < |column| =>
          CorrectValue(m, k, xlFixed, angles[if |angles| == 1 then 0 else i], column[i])))
      else
        Err(ShapeError)
  }

  /** Observations all taken at the reference geometry come out unchanged. */
  lemma CorrectColumnAtReference(m: Math, row: seq<Float>, angles: seq<Angles<Float>>, column: seq<Float>)
    requires XlConstant(m).Ok? && XlConstant(m).value != 0.0
    requires |row| >= 4
    requires FFixed(m, RowCoefficients(row).value).Finite? && FFixed(m, RowCoefficients(row).value).v != 0.0
    requires |angles| == |column| > 0 || |angles| == 1
    requires forall n :: 0 <= n < |angles| ==> angles[n] == Reference
    ensures CorrectColumn(m, row, angles, Finite(XlConstant(m).value), column) == Ok(column)
  {
    var k := RowCoefficients(row).value;
    var xl := Finite(XlConstant(m).value);
    var result := CorrectColumn(m, row, angles, xl, column);
    assert result.Ok?;
    var r := result.value;
    forall i | 0 <= i < |column|
      ensures r[i] == column[i]
    {
      UnitAt(m, k, xl, angles, column, r, i);
    }
    assert r == column;
  }

  lemma UnitAt(m: Math, k: BandCoefficients, xl: Float, angles: seq<Angles<Float>>, column: seq<Float>, r: seq<Float>, i: int)
    requires XlConstant(m).Ok? && XlConstant(m).value != 0.0 && xl == Finite(XlConstant(m).value)
    requires FFixed(m, k).Finite? && FFixed(m, k).v != 0.0
    requires |angles| == |column| > 0 || |angles| == 1
    requires forall n :: 0 <= n < |angles| ==> angles[n] == Reference
    requires |r| == |column| && 0 <= i < |column|
    requires r[i] == CorrectValue(m, k, xl, angles[if |angles| == 1 then 0 else i], column[i])
    ensures r[i] == column[i]
  {
    CorrectValueAtReference(m, k, column[i]);
  }

  /** The driver loop `for wv in range(len(coefficient_table))`
      (sp_extract.py:268-269): column `wv` of the reflectance matrix is
      replaced by its correction with table row `wv`; a table longer than
      the matrix is wide ends in an IndexError. The columns past the table
      keep their values, and the input matrix itself is a value, so the copy
      `input_refarray` (sp_extract.py:265) is the argument, unchanged. */
  method CorrectAll(m: Math, table: seq<seq<Float>>, angles: seq<Angles<Float>>, xlFixed: Float,
                    ref: Grid<Float>) returns (r: Result<Grid<Float>>)
    requires Rectangular(ref)
    ensures r.Ok? <==> (|table| <= ref.width
      && forall wv :: 0 <= wv < |table| ==> CorrectColumn(m, table[wv], angles, xlFixed, Column(ref, wv)).Ok?)
    ensures r.Ok? ==> Rectangular(r.value) && r.value.width == ref.width && |r.value.rows| == |ref.rows|
    ensures r.Ok? ==> forall i, j :: 0 <= i < |ref.rows| && |table| <= j < ref.width ==>
      r.value.rows[i][j] == ref.rows[i][j]
    ensures r.Ok? ==> forall i, wv :: 0 <= i < |ref.rows| && 0 <= wv < |table| ==>
      r.value.rows[i][wv] == CorrectColumn(m, table[wv], angles, xlFixed, Column(ref, wv)).value[i]
  {
    var g := ref;
    var wv := 0;
    while wv < |table|
      invariant 0 <= wv <= |table|
      invariant Rectangular(g) && g.width == ref.width && |g.rows| == |ref.rows|
      invariant wv <= ref.width
      invariant forall v :: 0 <= v < wv ==> CorrectColumn(m, table[v], angles, xlFixed, Column(ref, v)).Ok?
      invariant forall i, j :: 0 <= i < |ref.rows| && wv <= j < ref.width ==> g.rows[i][j] == ref.rows[i][j]
      invariant forall i, v :: 0 <= i < |ref.rows| && 0 <= v < wv ==>
        g.rows[i][v] == CorrectColumn(m, table[v], angles, xlFixed, Column(ref, v)).value[i]
    {
      if wv >= g.width {
        return Err(IndexError);
      }
      assert Column(g, wv) == Column(ref, wv);
      var corrected := CorrectColumn(m, table[wv], angles, xlFixed, Column(g, wv));
      if corrected.Err? {
        return Err(corrected.error);
      }
      g := SetColumn(g, wv, corrected.value);
      wv := wv + 1;
    }
    return Ok(g);
  }
}

=== FILE: pipeline.dfy ===
/** The script body (sp_extract.py:245-280): read the product, clean the
    wavelengths and reflectance, correct the reflectance photometrically,
    find the continuum anchor bands and remove the continuum from every
    observation. The inputs are the product file's bytes, the coefficient
    table's text, the two command-line options that change the outcome
    (`-s` and whether `-w` was given), and the conversions the model keeps
    abstract: `float()` of a table field, the big-endian float32 decoding of
    an angle word, and the trigonometry. */
module Pipeline {
  import opened Base
  import opened Floats
  import Text
  import Label
  import Decode
  import Clean
  import BandSearch
  import Coefficients
  import Photometric
  import Continuum

  /** The anchor wavelengths of the continuum, in nanometres (sp_extract.py:276). */
  const ShortAnchor: real := 752.8
  const LongAnchor: real := 1547.7

  /** The file's bytes read as text: one character per byte, as Python 2
      reads a binary file. */
  function Chars(file: seq<Decode.byte>): (s: string)
    ensures |s| == |file|
  {
    seq(|file|, i requires 0 <= i < |file| => (file[i] as int) as char)
  }

  /** The label lines `for line in label` yields. */
  function LabelLines(file: seq<Decode.byte>): seq<string>
  {
    Text.Lines(Chars(file))
  }

  /** Every decoded angle word of every observation, as numbers. */
  function AngleValues(geometry: seq<Angles<seq<Decode.byte>>>, decode32: seq<Decode.byte> -> Float): (r: seq<Angles<Float>>)
    ensures |r| == |geometry|
  {
    seq(|geometry|, n requires 0 <= n < |geometry| =>
      Angles(decode32(geometry[n].incidence), decode32(geometry[n].emission), decode32(geometry[n].phase)))
  }

  function AsFloats(g: Grid<real>): (r: Grid<Float>)
    ensures r.width == g.width && |r.rows| == |g.rows|
    ensures Rectangular(g) ==> Rectangular(r)
  {
    Grid(g.width, seq(|g.rows|, i requires 0 <= i < |g.rows| =>
      seq(|g.rows[i]|, k requires 0 <= k < |g.rows[i]| => Finite(g.rows[i][k]))))
  }

  /** What the script has computed when it reaches the plots. */
  datatype Output = Output(
    wavelengths: seq<real>,     // the cleaned wavelength vector
    angles: seq<Angles<Float>>, // `angles`, one triple per observation
    input: Grid<Float>,         // `input_refarray`: cleaned, uncorrected reflectance
    photometric: Grid<Float>,   // `photometrically_corrected_ref_array`
    corrected: nat,             // how many leading columns the table covered
    anchors: seq<nat>,          // `bands`
    removed: Grid<Float>,       // `ref_array` after the continuum loop
    baseline: Grid<Float>)      // `continuum_slope_array`

  /** The cleaned reflectance as numbers: band k of row i is raw band
      `RawIndex(k)`, skipping the 23 spike bands. */
  function CleanReflectance(g: Grid<real>): (r: Grid<Float>)
    requires Rectangular(g) && g.width == Clean.RawBands
    ensures Rectangular(r) && r.width == Clean.CleanBands && |r.rows| == |g.rows|
    ensures forall i, k :: 0 <= i < |g.rows| && 0 <= k < Clean.CleanBands ==>
      r.rows[i][k] == Finite(g.rows[i][Clean.RawIndex(k)])
  {
    var cleaned := Clean.CleanData(Clean.Matrix(g)).grid;
    assert forall i :: 0 <= i < |g.rows| ==> cleaned.rows[i] == g.rows[i][..Clean.SpikeStart] + g.rows[i][Clean.SpikeEnd..];
    AsFloats(cleaned)
  }

  /** `input` is the cleaned reflectance the file's label points at. */
  predicate ReflectanceOf(file: seq<Decode.byte>, input: Grid<Float>)
  {
    var scan := Label.ScanLabel(LabelLines(file));
    scan.Ok? &&
    var refl := Decode.DecodeRows(file, scan.value.ref, scan.value.refLines, "ref_offset", "ref_lines", Decode.ReflectanceScale);
    refl.Ok? && input == CleanReflectance(refl.value)
  }

  /** `wv` is the cleaned wavelength vector the file's label points at. */
  predicate WavelengthsOf(file: seq<Decode.byte>, wv: seq<real>)
  {
    var scan := Label.ScanLabel(LabelLines(file));
    scan.Ok? &&
    var raw := Decode.DecodeWavelengths(file, scan.value);
    raw.Ok? && wv == Clean.CleanData(Clean.Vector(raw.value)).items
  }

  /** `a` holds, for each of the label's observations, the decoded angle
      words of that observation's ancillary row. */
  predicate AnglesOf(file: seq<Decode.byte>, decode32: seq<Decode.byte> -> Float, a: seq<Angles<Float>>)
  {
    var scan := Label.ScanLabel(LabelLines(file));
    && scan.Ok? && scan.value.points.Some?
    && |a| == (if scan.value.points.value > 0 then scan.value.points.value else 0)
    && forall n :: 0 <= n < |a| ==>
         var words := Decode.ObservationAngles(file, scan.value, n);
         && words.Ok?
         && a[n] == Angles(decode32(words.value.incidence), decode32(words.value.emission), decode32(words.value.phase))
  }

  /** Everything the product half reads succeeds: the label scan, the
      wavelength and both matrix reads, and the angle words of every
      observation the label counts. */
  predicate ProductReads(file: seq<Decode.byte>)
  {
    var scan := Label.ScanLabel(LabelLines(file));
    && scan.Ok?
    && Decode.DecodeWavelengths(file, scan.value).Ok?
    && Decode.DecodeRows(file, scan.value.rad, scan.value.radLines, "rad_offset", "rad_lines", Decode.RadianceScale).Ok?
    && Decode.DecodeRows(file, scan.value.ref, scan.value.refLines, "ref_offset", "ref_lines", Decode.ReflectanceScale).Ok?
    && scan.value.points.Some?
    && (forall n :: 0 <= n < scan.value.points.value ==> Decode.ObservationAngles(file, scan.value, n).Ok?)
  }

  /** The wavelength vector as decoded, before cleaning. */
  function RawWavelengths(file: seq<Decode.byte>): seq<real>
    requires ProductReads(file)
  {
    Decode.DecodeWavelengths(file, Label.ScanLabel(LabelLines(file)).value).value
  }

  /** `-s` reshapes the wavelengths into 296 x 1, which needs all 296. */
  predicate SaveFits(file: seq<Decode.byte>, save: bool)
    requires ProductReads(file)
  {
    save ==> |RawWavelengths(file)| == Decode.Bands
  }

  /** The cleaned wavelengths, reflectance and angles of a readable product. */
  function ProductWavelengths(file: seq<Decode.byte>): (wv: seq<real>)
    requires ProductReads(file)
    ensures WavelengthsOf(file, wv)
  {
    Clean.CleanData(Clean.Vector(RawWavelengths(file))).items
  }

  function ProductReflectance(file: seq<Decode.byte>): (g: Grid<Float>)
    requires ProductReads(file)
    ensures Rectangular(g) && ReflectanceOf(file, g)
  {
    var f := Label.ScanLabel(LabelLines(file)).value;
    CleanReflectance(Decode.DecodeRows(file, f.ref, f.refLines, "ref_offset", "ref_lines", Decode.ReflectanceScale).value)
  }

  function ProductAngles(file: seq<Decode.byte>, decode32: seq<Decode.byte> -> Float): (a: seq<Angles<Float>>)
    requires ProductReads(file)
    ensures AnglesOf(file, decode32, a)
  {
    var f := Label.ScanLabel(LabelLines(file)).value;
    seq(if f.points.value > 0 then f.points.value else 0, n requires 0 <= n < f.points.value =>
      var words := Decode.ObservationAngles(file, f, n).value;
      Angles(decode32(words.incidence), decode32(words.emission), decode32(words.phase)))
  }

  /** The product half of the script (sp_extract.py:245-247): scan the label,
      decode the product, decode the angle words, and with `-s` reshape the
      wavelengths into a 296 x 1 column (sp_extract.py:113-116), which fails
      on a short wavelength vector; then clean wavelengths and reflectance. */
  method ReadProduct(file: seq<Decode.byte>, save: bool, decode32: seq<Decode.byte> -> Float)
    returns (r: Result<(seq<real>, Grid<Float>, seq<Angles<Float>>)>)
    ensures r.Ok? ==> WavelengthsOf(file, r.value.0)
    ensures r.Ok? ==> ReflectanceOf(file, r.value.1)
    ensures r.Ok? ==> AnglesOf(file, decode32, r.value.2)
    ensures r.Ok? && save ==> |r.value.0| == Clean.CleanBands
    ensures (save && Label.ScanLabel(LabelLines(file)).Ok?
      && Decode.DecodeWavelengths(file, Label.ScanLabel(LabelLines(file)).value).Ok?
      && |Decode.DecodeWavelengths(file, Label.ScanLabel(LabelLines(file)).value).value| < Decode.Bands) ==> r.Err?
    ensures r.Ok? <==> ProductReads(file) && SaveFits(file, save)
    ensures r.Ok? ==> r.value == (ProductWavelengths(file), ProductReflectance(file), ProductAngles(file, decode32))
  {
    var f :- Label.ScanLabel(LabelLines(file));
    var product :- Decode.DecodeProduct(file, f);
    assert ProductReads(file) && product.wavelengths == RawWavelengths(file);
    if save && |product.wavelengths| != Decode.Bands {
      return Err(SizeError);
    }
    var cleanWv := Clean.CleanData(Clean.Vector(product.wavelengths)).items;
    var angles := AngleValues(product.geometry, decode32);
    GeometryAngles(file, decode32, product.geometry);
    assert CleanReflectance(product.reflectance) == ProductReflectance(file);
    return Ok((cleanWv, CleanReflectance(product.reflectance), angles));
  }

  /** The angle words read for every observation are the product's angles. */
  lemma GeometryAngles(file: seq<Decode.byte>, decode32: seq<Decode.byte> -> Float, geometry: seq<Angles<seq<Decode.byte>>>)
    requires ProductReads(file)
    requires var f := Label.ScanLabel(LabelLines(file)).value;
      && |geometry| == (if f.points.value > 0 then f.points.value else 0)
      && forall n :: 0 <= n < |geometry| ==> Ok(geometry[n]) == Decode.ObservationAngles(file, f, n)
    ensures AngleValues(geometry, decode32) == ProductAngles(file, decode32)
  {
    var f := Label.ScanLabel(LabelLines(file)).value;
    var a, b := AngleValues(geometry, decode32), ProductAngles(file, decode32);
    forall n | 0 <= n < |a|
      ensures a[n] == b[n]
    {
      assert Ok(geometry[n]) == Decode.ObservationAngles(file, f, n);
    }
  }

  /** What the correction half promises about its output `o`, given the
      cleaned wavelengths, the angles, the uncorrected reflectance and the
      coefficient table: the columns the table covers are corrected with
      their table row, the rest are copied, the anchors are the first bands
      nearest 752.8 and 1547.7 nm, and every observation's continuum is fitted
      through its two anchor bands. */
  ghost predicate Corrected(wv: seq<real>, angles: seq<Angles<Float>>, input: Grid<Float>,
                            table: seq<seq<Float>>, m: Math, o: Output)
    requires Rectangular(input)
  {
    && o.wavelengths == wv && o.angles == angles && o.input == input && o.corrected == |table|
    && Rectangular(o.photometric) && o.photometric.width == input.width
    && |o.photometric.rows| == |input.rows|
    && Photometric.XlConstant(m).Ok? && |table| <= input.width
    && (forall i, j :: 0 <= i < |input.rows| && 0 <= j < |table| ==>
          var column := Photometric.CorrectColumn(m, table[j], angles, Finite(Photometric.XlConstant(m).value), Column(input, j));
          column.Ok? && o.photometric.rows[i][j] == column.value[i])
    && (forall i, j :: 0 <= i < |input.rows| && |table| <= j < input.width ==>
          o.photometric.rows[i][j] == input.rows[i][j])
    && |o.anchors| == 2
    && BandSearch.IsFirstNearest(wv, ShortAnchor, o.anchors[0])
    && BandSearch.IsFirstNearest(wv, LongAnchor, o.anchors[1])
    && |o.removed.rows| == |o.photometric.rows| && |o.baseline.rows| == |o.photometric.rows|
    && (forall i :: 0 <= i < |o.photometric.rows| ==>
          Continuum.ContinuumRow(wv, o.photometric.rows[i], o.anchors[0], o.anchors[1])
            == Ok(Continuum.Fit(o.removed.rows[i], o.baseline.rows[i])))
  }

  /** When the correction half gets through: the reference geometry's
      constant is defined, the table covers no more columns than there are
      bands and each of its rows has the four coefficients, the angles
      broadcast against the observations when there is a row to apply, and
      the wavelengths are non-empty and broadcast against the bands for the
      continuum. */
  predicate CorrectionSucceeds(wv: seq<real>, angles: seq<Angles<Float>>, input: Grid<Float>, table: seq<seq<Float>>, m: Math)
  {
    && Photometric.XlConstant(m).Ok?
    && |table| <= input.width
    && (forall j :: 0 <= j < |table| ==> |table[j]| >= 4)
    && (|table| > 0 ==> |angles| > 0 && (|input.rows| == |angles| || |angles| == 1))
    && |wv| > 0
    && (|input.rows| == 0 || |wv| == input.width || (|wv| == 1 && input.width > 0))
  }

  /** The correction half of the script (sp_extract.py:252-280). */
  method Correct(wv: seq<real>, angles: seq<Angles<Float>>, input: Grid<Float>, table: seq<seq<Float>>, m: Math)
    returns (r: Result<Output>)
    requires Rectangular(input)
    ensures r.Ok? ==> Corrected(wv, angles, input, table, m, r.value)
    ensures r.Ok? <==> CorrectionSucceeds(wv, angles, input, table, m)
  {
    var xl :- Photometric.XlConstant(m);
    if |table| <= input.width {
      ColumnsCorrectable(m, table, angles, Finite(xl), input);
    }
    var photometric :- Photometric.CorrectAll(m, table, angles, Finite(xl), input);
    var anchors :- BandSearch.BandNumbers(wv, [ShortAnchor, LongAnchor]);
    var fits :- Continuum.ContinuumAll(wv, photometric, anchors[0], anchors[1]);
    return Ok(Output(wv, angles, input, photometric, |table|, anchors, fits.0, fits.1));
  }

  /** Every covered column can be corrected exactly when every table row has
      four coefficients and the angles broadcast against the observations. */
  lemma ColumnsCorrectable(m: Math, table: seq<seq<Float>>, angles: seq<Angles<Float>>, xlFixed: Float, input: Grid<Float>)
    requires Rectangular(input) && |table| <= input.width
    ensures (forall j :: 0 <= j < |table| ==> Photometric.CorrectColumn(m, table[j], angles, xlFixed, Column(input, j)).Ok?)
      <==> (forall j :: 0 <= j < |table| ==> |table[j]| >= 4) && (|table| > 0 ==> |angles| > 0 && (|input.rows| == |angles| || |angles| == 1))
  {
    forall j | 0 <= j < |table|
      ensures Photometric.CorrectColumn(m, table[j], angles, xlFixed, Column(input, j)).Ok?
        <==> |table[j]| >= 4 && |angles| > 0 && (|input.rows| == |angles| || |angles| == 1)
    {
      assert |Column(input, j)| == |input.rows|;
    }
    if |table| > 0 && forall j :: 0 <= j < |table| ==> Photometric.CorrectColumn(m, table[j], angles, xlFixed, Column(input, j)).Ok? {
      assert Photometric.CorrectColumn(m, table[0], angles, xlFixed, Column(input, 0)).Ok?;
    }
  }

  /** The coefficient table the run corrects with. */
  function TableOf(tableText: string, parseFloat: string -> Option<Float>): Result<seq<seq<Float>>>
  {
    Coefficients.ParseCoefficients(Text.Lines(tableText), parseFloat)
  }

  /** The whole run, up to the plots. `-w` stores a one-element list, so
      `int(args.wv_limits)` (sp_extract.py:248) is a TypeError whenever the
      option is given; without it the default 1652 only bounds the plots. */
  method Run(file: seq<Decode.byte>, tableText: string, save: bool, limitGiven: bool,
             parseFloat: string -> Option<Float>, decode32: seq<Decode.byte> -> Float, m: Math)
    returns (r: Result<Output>)
    ensures limitGiven ==> r.Err?
    ensures r.Ok? ==> (WavelengthsOf(file, r.value.wavelengths) && ReflectanceOf(file, r.value.input)
      && AnglesOf(file, decode32, r.value.angles))
    ensures r.Ok? && save ==> |r.value.wavelengths| == Clean.CleanBands
    ensures r.Ok? ==> (Rectangular(r.value.input) && TableOf(tableText, parseFloat).Ok?
      && Corrected(r.value.wavelengths, r.value.angles, r.value.input, TableOf(tableText, parseFloat).value, m, r.value))
    ensures r.Ok? <==> (!limitGiven && ProductReads(file) && SaveFits(file, save) && TableOf(tableText, parseFloat).Ok?
      && CorrectionSucceeds(ProductWavelengths(file), ProductAngles(file, decode32), ProductReflectance(file),
                            TableOf(tableText, parseFloat).value, m))
  {
    var product :- ReadProduct(file, save, decode32);
    var wv, input, angles := product.0, product.1, product.2;
    if limitGiven {
      return Err(TypeError);
    }
    var parsed := TableOf(tableText, parseFloat);
    if parsed.Err? {
      return Err(parsed.error);
    }
    r := Correct(wv, angles, input, parsed.value, m);
  }
}

=== FILE: text.dfy ===
/** The pieces of Python string handling the label scan relies on:
    `key in line`, `s.split(sep)`, and `int(s)` on a byte string. */
module Text {
  import opened Base

  /** `pat in s`: the substring test. */
  predicate Contains(s: string, pat: string)
    decreases |s|
  {
    pat <= s || (|s| > 0 && Contains(s[1..], pat))
  }

  /** `s.split(sep)` with an explicit separator: every occurrence cuts, empty
      pieces are kept, and there is always at least one piece. */
  function Split(s: string, sep: char): (r: seq<string>)
    ensures |r| >= 1
    ensures forall k :: 0 <= k < |r| ==> sep !in r[k]
    decreases |s|
  {
    if |s| == 0 then [""]
    else
      var rest := Split(s[1..], sep);
      if s[0] == sep then [""] + rest
      else [[s[0]] + rest[0]] + rest[1..]
  }

  /** `sep.join(parts)` */
  function Join(parts: seq<string>, sep: char): string
    requires |parts| >= 1
    decreases |parts|
  {
    if |parts| == 1 then parts[0] else parts[0] + [sep] + Join(parts[1..], sep)
  }

  /** `s.split(sep)[k]`, or None where Python raises IndexError. */
  function Piece(s: string, sep: char, k: nat): Option<string>
  {
    var parts := Split(s, sep);
    if k < |parts| then Some(parts[k]) else None
  }

  /** Splitting and joining again gives back the original string. */
  lemma {:induction false} JoinSplit(s: string, sep: char)
    ensures Join(Split(s, sep), sep) == s
    decreases |s|
  {
    if |s| > 0 {
      JoinSplit(s[1..], sep);
      var rest := Split(s[1..], sep);
      if s[0] == sep {
        assert s == [sep] + s[1..];
      } else {
        if |rest| == 1 {
          assert s == [s[0]] + rest[0];
        } else {
          assert Join(rest, sep) == rest[0] + [sep] + Join(rest[1..], sep);
          assert s == [s[0]] + s[1..];
        }
      }
    }
  }

  /** A piece free of the separator, followed by the separator, is split off
      whole. */
  lemma {:induction false} SplitCons(a: string, sep: char, b: string)
    requires sep !in a
    ensures Split(a + [sep] + b, sep) == [a] + Split(b, sep)
    decreases |a|
  {
    if |a| == 0 {
      assert a + [sep] + b == [sep] + b;
      assert ([sep] + b)[1..] == b;
    } else {
      SplitCons(a[1..], sep, b);
      assert (a + [sep] + b)[1..] == a[1..] + [sep] + b;
      assert [a[0]] + a[1..] == a;
    }
  }

  /** A string free of the separator is a single piece. */
  lemma {:induction false} SplitNone(b: string, sep: char)
    requires sep !in b
    ensures Split(b, sep) == [b]
    decreases |b|
  {
    if |b| > 0 {
      SplitNone(b[1..], sep);
      assert [b[0]] + b[1..] == b;
    }
  }

  /** Joining separator-free pieces and splitting again gives back the pieces. */
  lemma {:induction false} SplitJoin(parts: seq<string>, sep: char)
    requires |parts| >= 1
    requires forall k :: 0 <= k < |parts| ==> sep !in parts[k]
    ensures Split(Join(parts, sep), sep) == parts
    decreases |parts|
  {
    if |parts| == 1 {
      SplitNone(parts[0], sep);
    } else {
      SplitJoin(parts[1..], sep);
      SplitCons(parts[0], sep, Join(parts[1..], sep));
      assert parts == [parts[0]] + parts[1..];
    }
  }

  /** The index of the first newline, or the length when there is none. */
  function FirstNewline(s: string): (k: nat)
    ensures k <= |s|
    ensures forall j :: 0 <= j < k ==> s[j] != '\n'
    ensures k < |s| ==> s[k] == '\n'
    decreases |s|
  {
    if |s| == 0 || s[0] == '\n' then 0 else 1 + FirstNewline(s[1..])
  }

  /** `for line in f` on a file opened in binary mode: each line keeps its
      newline, a last line without one is yielded as it is, and nothing is
      yielded for an empty tail. */
  function Lines(s: string): (r: seq<string>)
    ensures forall i :: 0 <= i < |r| ==> |r[i]| > 0
    ensures forall i :: 0 <= i < |r| - 1 ==> r[i][|r[i]| - 1] == '\n'
    ensures forall i, k :: 0 <= i < |r| && 0 <= k < |r[i]| - 1 ==> r[i][k] != '\n'
    decreases |s|
  {
    if |s| == 0 then []
    else
      var k := FirstNewline(s);
      if k == |s| then [s] else [s[..k + 1]] + Lines(s[k + 1..])
  }

  function Concat(parts: seq<string>): string
    decreases |parts|
  {
    if |parts| == 0 then "" else parts[0] + Concat(parts[1..])
  }

  /** A line has exactly one newline, at its end, except possibly the last
      line, which has none. */
  predicate WellSplit(r: seq<string>)
  {
    forall i :: 0 <= i < |r| ==>
      |r[i]| > 0
      && (forall j :: 0 <= j < |r[i]| - 1 ==> r[i][j] != '\n')
      && (i < |r| - 1 ==> r[i][|r[i]| - 1] == '\n')
  }

  /** The lines put back together are the text, and each is a proper line. */
  lemma {:induction false} LinesConcat(s: string)
    ensures Concat(Lines(s)) == s
    ensures WellSplit(Lines(s))
    decreases |s|
  {
    if |s| > 0 {
      var k := FirstNewline(s);
      if k < |s| {
        LinesConcat(s[k + 1..]);
        assert s == s[..k + 1] + s[k + 1..];
        WellSplitCons(s[..k + 1], Lines(s[k + 1..]));
      } else {
        assert Concat([s]) == s + "";
      }
    }
  }

  /** A line ending in its only newline, put in front of well-split lines. */
  lemma WellSplitCons(line: string, rest: seq<string>)
    requires |line| > 0 && line[|line| - 1] == '\n'
    requires forall j :: 0 <= j < |line| - 1 ==> line[j] != '\n'
    requires WellSplit(rest)
    ensures WellSplit([line] + rest)
  {
    var r := [line] + rest;
    forall i | 0 <= i < |r|
      ensures |r[i]| > 0
      ensures forall j :: 0 <= j < |r[i]| - 1 ==> r[i][j] != '\n'
      ensures i < |r| - 1 ==> r[i][|r[i]| - 1] == '\n'
    {
      if i > 0 {
        assert r[i] == rest[i - 1];
      }
    }
  }

  /** The characters Python's `int()` strips around a number. */
  predicate IsSpace(c: char)
  {
    c == ' ' || c == '\t' || c == '\n' || c == '\r' || c == '\U{000B}' || c == '\U{000C}'
  }

  predicate AllSpace(s: string)
  {
    forall k :: 0 <= k < |s| ==> IsSpace(s[k])
  }

  function TrimStart(s: string): string
    decreases |s|
  {
    if |s| > 0 && IsSpace(s[0]) then TrimStart(s[1..]) else s
  }

  function TrimEnd(s: string): string
    decreases |s|
  {
    if |s| > 0 && IsSpace(s[|s| - 1]) then TrimEnd(s[..|s| - 1]) else s
  }

  predicate IsDigit(c: char)
  {
    '0' <= c <= '9'
  }

  predicate AllDigits(s: string)
  {
    forall k :: 0 <= k < |s| ==> IsDigit(s[k])
  }

  /** The value of a string of decimal digits, most significant first. */
  function DigitsValue(s: string): nat
    requires AllDigits(s)
    decreases |s|
  {
    if |s| == 0 then 0
    else DigitsValue(s[..|s| - 1]) * 10 + (s[|s| - 1] as int - '0' as int)
  }

  /** `int(s)` for base 10, as Python 2 reads a byte string: whitespace
      around the number and between an optional sign and the digits, and at
      least one digit; anything else raises ValueError (None here). */
  function ParseInt(s: string): Option<int>
  {
    var t := TrimEnd(TrimStart(s));
    if |t| >= 1 && (t[0] == '-' || t[0] == '+') then
      var u := TrimStart(t[1..]);
      if |u| >= 1 && AllDigits(u) then
        var magnitude: int := DigitsValue(u);
        Some(if t[0] == '-' then -magnitude else magnitude)
      else
        None
    else if |t| >= 1 && AllDigits(t) then
      Some(DigitsValue(t))
    else
      None
  }

  /** `int()` raises ValueError on text without a digit, and a negative
      value needs a minus sign. */
  lemma ParseIntNeedsDigit(s: string)
    ensures (forall k :: 0 <= k < |s| ==> !IsDigit(s[k])) ==> ParseInt(s).None?
    ensures ParseInt(s).Some? && ParseInt(s).value < 0 ==> '-' in s
  {
    TrimKeepsChars(s);
    var t := TrimEnd(TrimStart(s));
    if |t| >= 1 && (t[0] == '-' || t[0] == '+') {
      var u := TrimStart(t[1..]);
      TrimStartSuffix(t[1..]);
      if |u| >= 1 && AllDigits(u) {
        assert u[0] in t;
      }
    } else if |t| >= 1 && AllDigits(t) {
      assert t[0] in s;
    }
  }

  /** Trimming only removes characters. */
  lemma {:induction false} TrimKeepsChars(s: string)
    ensures forall k :: 0 <= k < |TrimStart(s)| ==> TrimStart(s)[k] in s
    ensures forall t, k :: t == TrimStart(s) && 0 <= k < |TrimEnd(t)| ==> TrimEnd(t)[k] in s
  {
    TrimStartSuffix(s);
    TrimEndPrefix(TrimStart(s));
  }

  lemma {:induction false} TrimStartSuffix(s: string)
    ensures |TrimStart(s)| <= |s| && TrimStart(s) == s[|s| - |TrimStart(s)|..]
    decreases |s|
  {
    if |s| > 0 && IsSpace(s[0]) {
      TrimStartSuffix(s[1..]);
    }
  }

  lemma {:induction false} TrimEndPrefix(s: string)
    ensures |TrimEnd(s)| <= |s| && TrimEnd(s) == s[..|TrimEnd(s)|]
    decreases |s|
  {
    if |s| > 0 && IsSpace(s[|s| - 1]) {
      TrimEndPrefix(s[..|s| - 1]);
    }
  }

  /** The decimal rendering of a natural number, as it appears in a label. */
  function ShowNat(n: nat): (s: string)
    ensures |s| >= 1 && AllDigits(s)
    decreases n
  {
    if n < 10 then [('0' as int + n) as char]
    else ShowNat(n / 10) + [('0' as int + n % 10) as char]
  }

  function ShowInt(n: int): (s: string)
  {
    if n < 0 then "-" + ShowNat(-n) else ShowNat(n)
  }

  lemma {:induction false} DigitsOfShowNat(n: nat)
    ensures DigitsValue(ShowNat(n)) == n
    decreases n
  {
    if n >= 10 {
      DigitsOfShowNat(n / 10);
      var s := ShowNat(n);
      assert s[..|s| - 1] == ShowNat(n / 10);
    }
  }

  lemma {:induction false} TrimStartSpaces(pre: string, s: string)
    requires AllSpace(pre)
    requires |s| > 0 && !IsSpace(s[0])
    ensures TrimStart(pre + s) == s
    decreases |pre|
  {
    if |pre| > 0 {
      assert (pre + s)[1..] == pre[1..] + s;
      TrimStartSpaces(pre[1..], s);
    } else {
      assert pre + s == s;
    }
  }

  lemma {:induction false} TrimEndSpaces(s: string, post: string)
    requires AllSpace(post)
    requires |s| > 0 && !IsSpace(s[|s| - 1])
    ensures TrimEnd(s + post) == s
    decreases |post|
  {
    if |post| > 0 {
      var p := post[..|post| - 1];
      assert (s + post)[..|s + post| - 1] == s + p;
      TrimEndSpaces(s, p);
    } else {
      assert s + post == s;
    }
  }

  /** `int()` reads back a rendered integer, whatever whitespace surrounds it. */
  lemma ParseShowInt(pre: string, n: int, post: string)
    requires AllSpace(pre) && AllSpace(post)
    ensures ParseInt(pre + ShowInt(n) + post) == Some(n)
  {
    var s := ShowInt(n);
    var m: nat := if n < 0 then -n else n;
    DigitsOfShowNat(m);
    assert |s| > 0 && !IsSpace(s[0]) && !IsSpace(s[|s| - 1]);
    assert pre + s + post == pre + (s + post);
    TrimStartSpaces(pre, s + post);
    TrimEndSpaces(s, post);
    var t := TrimEnd(TrimStart(pre + s + post));
    assert t == s;
    if n < 0 {
      assert t[1..] == ShowNat(m);
      assert TrimStart(t[1..]) == ShowNat(m);
    }
  }

  /** Whitespace between the sign and the digits is skipped too. */
  lemma ParseSpacedSign(pre: string, negative: bool, mid: string, n: nat, post: string)
    requires AllSpace(pre) && AllSpace(mid) && AllSpace(post)
    ensures ParseInt(pre + [if negative then '-' else '+'] + mid + ShowNat(n) + post)
      == Some((if negative then -1 else 1) * n)
  {
    var sign := if negative then '-' else '+';
    var digits := ShowNat(n);
    DigitsOfShowNat(n);
    var body := [sign] + (mid + digits);
    assert !IsSpace(body[|body| - 1]) by {
      assert body[|body| - 1] == digits[|digits| - 1];
    }
    assert pre + [sign] + mid + digits + post == pre + body + post == pre + (body + post);
    assert (body + post)[0] == sign;
    TrimStartSpaces(pre, body + post);
    TrimEndSpaces(body, post);
    var t := TrimEnd(TrimStart(pre + body + post));
    assert t == body;
    assert t[1..] == mid + digits;
    TrimStartSpaces(mid, digits);
    assert TrimStart(t[1..]) == digits;
  }
}
